=== FILE: README.md ===
# Lane-sorting controller: a Dafny model

The controller runs on a Raspberry Pi beside a conveyor with three sorting
lanes. A camera thread keeps the latest frame. A detection loop decodes QR
codes from that frame. A payload `LOAI1`, `LOAI2` or `LOAI3` selects lane 0,
1 or 2. The loop waits up to 15 s for the lane's proximity sensor to read 0,
then starts a `sorting_process` thread. That thread drives the lane's
pull and push relays through a four-write sequence. Its `finally` block
sets the lane back to Ready ("Sẵn sàng") and increments its count. A
payload `NG` is reported as a reject, and anything else as unknown. Every
event is pushed to dashboard clients over a websocket.

The repository holds two variants of the controller:

- `app.py` keeps the arrival wait inside the check that the lane is Ready,
  and `sorting_process` returns at once unless the lane is Ready or
  AwaitingItem.
- `app1.py` writes the relays through `RELAY_ON` and `RELAY_OFF`
  (active-low), normalises with `strip()` before `upper()`, and runs the
  arrival wait for every recognised code, whatever the lane's status.
  Its `sorting_process` has no guard, and its broadcaster reports sensor
  edges and the relay levels.

The model is a transition system per variant. It is split into six modules:

- `Gpio`: pins, levels, the lane wiring, and a pin map updated by ordered
  writes.
- `Text`: the part of Python's `upper()` and `strip()` that normalisation
  uses.
- `Detector`: the deduplication rule, classification and the arrival wait.
  These are shared by both variants.
- `Lanes`: lane records, statuses, log events, and the bookkeeping of
  sorting threads.
- `App`: `app.py`.
- `App1`: `app1.py`.

A state holds:

- the three lanes;
- the detector's memory;
- the pin map;
- the append-only event log;
- whether the detection loop is blocked in an arrival wait;
- the spawned sorting threads that have not started yet;
- the running cycles, each with the number of relay writes it has done.

Each environment move is one atomic step:

- a scan;
- the end of an arrival wait;
- a thread starting;
- one relay write;
- a thread's `finally` block;
- for `app1.py`, a broadcast tick.

A `finally` run before all four writes is a thread whose relay sequence
raised.

For `app.py` an inductive invariant is proved, and from it, for every
state reachable from start-up:

- at most one thread per lane is in flight;
- the guard never turns a thread away;
- statuses move only along Ready → AwaitingItem → Sorting → Ready, or from
  AwaitingItem back to Ready; a scan makes the first move, the start of
  the lane's thread the second, that thread's `finally` block the third,
  and only the end of the wait for that lane the move back.

For `app1.py` the model proves where that invariant fails, each time on a
run that starts from start-up:

- a timeout can put a Sorting lane back to Ready while its cycle still runs
  (the model has no durations for the relay writes; in the program this
  needs a cycle that outlasts the 15 s wait, i.e. a `cycle_delay` of about
  14.6 s or more);
- a second cycle can be dispatched for a lane that is already sorting.

## Model

| member | source | states |
|---|---|---|
| Gpio.WiringIsInjective | app.py:19-24 | No pin serves two roles or two lanes: push, pull and sensor pins are pairwise distinct. |
| Gpio.Apply | app.py:96-99 | The pin map after `GPIO.output` writes performed in order: no pin that was set becomes unset, and every written pin is set (its level is fixed by the next two rows). |
| Gpio.ApplyKeeps | app.py:96-99 | A pin the write sequence never touches keeps its level, and stays unset if it was unset. |
| Gpio.ApplyLastWrite | app.py:96-99 | After a sequence of `GPIO.output` writes, a written pin holds the level of the last write to it. |
| Gpio.ApplyAppend | app.py:68-70 | Performing one write sequence and then another is the same as performing their concatenation. |
| Text.Strip | app1.py:165 | `strip()` returns the infix left after removing whitespace (Python's `isspace` set) at both ends; its result neither starts nor ends with whitespace. |
| Text.Upper | app.py:126 | `upper()` keeps the length, maps every a-z to its capital, `ı` to `I` and `ſ` to `S`, leaves no a-z, keeps whitespace exactly where it was, and keeps every other character. |
| Text.UpperIdempotent | app.py:126 | Upper-casing twice is upper-casing once, and leaves no lower-case ASCII letter. |
| Text.StripUpperCommute | app1.py:165 | `strip()` then `upper()` equals `upper()` then `strip()`. |
| Text.NormalFixpoint | app.py:126 | A string with no lower-case letter and no surrounding whitespace is its own normal form. |
| Text.NormalFormIsFixed | app.py:126 | The result of `upper().strip()` is left unchanged by both `upper()` and `strip()`. |
| Detector.Accepts | app.py:124 | The dedup condition: an empty payload is never acted on, a payload other than the remembered one always is, and the remembered one is acted on again iff more than 3 s have passed. |
| Detector.StartUpAcceptsAll | app.py:110 | Before any acceptance every non-empty payload is acted on, whatever the time. |
| Detector.Remember | app.py:124-125 | After an acceptance, a payload is accepted iff it is non-empty and either differs from the accepted raw payload or comes more than 3 s after it; so the same payload at the same time is refused. |
| Detector.RepeatRule | app.py:124-125 | Once `p` is accepted at `t`: `p` again at `t'` is acted on iff more than 3 s have passed; any other non-empty payload is acted on at once; an empty payload never is. |
| Detector.Classify | app.py:126-141 | A lane token is exactly its lane code; the reject token is returned iff the text is `NG`; unknown iff it is neither `NG` nor a lane code. |
| Detector.ClassifyCode | app.py:111 | The lane map is a bijection: `LOAI1`, `LOAI2` and `LOAI3` select lanes 0, 1 and 2, and no two lanes share a code. |
| Detector.ArrivalIsUnique | app.py:133-136 | At most one sample can end the wait with an arrival. |
| Detector.AwaitFrom | app.py:133-137 | The polling loop from a given sample on reports the arrival sample when one exists, and times out iff none of the remaining samples is an arrival. |
| Detector.AwaitArrival | app.py:132-139 | The arrival wait reports the first LOW sample taken before the deadline, and times out iff there is none. |
| Lanes.LaneNameInjective | app1.py:48-50 | The three lane names are distinct. |
| Lanes.InitialLanes | app.py:33-38 | Three lanes with their fixed names, all Ready with count 0. |
| Lanes.SetStatus | app.py:131 | A status write changes that lane's status only; its count and every other lane are unchanged. |
| Lanes.CompleteCycle | app.py:101-104 | The `finally` update: the lane is Ready and its count is exactly one higher; other lanes are unchanged. |
| Lanes.FinishEvents | app.py:100-106 | The `sort` event with the new count always comes first; the closing info event is logged iff the relay sequence did not raise. |
| Lanes.BusyRemove | app.py:100-104 | Ending a thread removes exactly one thread of its own lane and none of another. |
| App.Normalize | app.py:126 | `data.upper().strip()`: the result is an infix of the upper-cased payload with only whitespace around it, is no longer than the payload, has no lower-case ASCII letter and neither starts nor ends with whitespace. |
| App.NormalizeIsIdempotent | app.py:126 | Normalising twice gives the same text as normalising once. |
| App.LaneCodeIsNormal | app.py:126 | The lane codes are their own `upper().strip()` normal form. |
| App.CodeSelectsLane | app.py:126-128 | A scanned lane code selects its own lane. |
| App.CycleWrites | app.py:95-99 | A cycle has four writes, all to the lane's own push and pull pins. |
| App.CycleEndsAtRest | app.py:95-99 | A fault-free cycle leaves push HIGH and pull LOW, with no other pin changed. |
| App.CycleFromRestIsNeutral | app.py:95-99 | A cycle started from the resting pair returns the pin map exactly to where it was. |
| App.FaultLeavesPullReleased | app.py:94-100 | If the sequence raises after the first, second or third write, the pull relay is left released (HIGH): nothing re-engages it. |
| App.ResetWrites | app.py:66-70 | Six writes, lane by lane in dictionary order: push released (HIGH), then pull engaged (LOW). |
| App.ResetResult | app.py:66-70 | The reset updates exactly the six relay pins, lane by lane, push HIGH then pull LOW. |
| App.ResetRestsEveryLane | app.py:66-70 | After the reset every lane is at rest, and every pin other than a relay pin is unchanged. |
| App.Init | app.py:33-40 | Start-up state: well formed, all lanes Ready with count 0, and all relays at rest whatever levels the pins had after setup. |
| App.Detect | app.py:124-141 | A scan changes memory only if the payload is accepted, and logs at most one event. `NG` logs `ng_product` and unknown payloads log `unknown_qr`, with no lane change. A lane code whose lane is not Ready changes nothing but memory. A Ready lane gets `qr`, becomes AwaitingItem, and the wait begins. |
| App.AwaitItem | app.py:132-139 | On an arrival a thread is spawned and no status changes. On a timeout the lane is Ready and no thread is spawned. Either way the loop is free and nothing is logged. |
| App.StartSorting | app.py:87-93 | A thread whose lane is neither Ready nor AwaitingItem does nothing. Otherwise the lane becomes Sorting, the start event is logged, and a cycle begins with no writes done. |
| App.RelayStep | app.py:96-99 | One relay write of a running cycle moves no pin outside the cycle's own lane, and no lane gains or loses a thread: the thread only advances to its next write. |
| App.FinishSorting | app.py:100-106 | On every exit path: the lane is Ready, its count is one higher, other lanes are unchanged, and `sort` with the new count is logged. The closing event is logged only after all four writes. The relays are not touched. |
| App.Next | app.py:207-209 | Every step keeps the state well formed and only appends to the event log. |
| App.CountMovesOnlyInFinally | app.py:104 | A lane's count changes only in a `finally` step of that lane, and by exactly one. |
| App.RunIsMonotone | app.py:104 | Over any sequence of steps no count decreases and the log only grows. |
| App.InitSatisfiesInv | app.py:33-38 | The start-up state satisfies the lane invariant. |
| App.DetectKeepsInv | app.py:124-141 | A scan preserves the lane invariant. |
| App.DetectKeepsLaneInv | app.py:129-131 | A scan preserves each lane's part of the invariant. |
| App.AwaitItemKeepsInv | app.py:132-139 | The end of the arrival wait preserves the lane invariant. |
| App.StartSortingKeepsInv | app.py:88-92 | A thread starting preserves the lane invariant. |
| App.RelayStepKeepsInv | app.py:96-99 | A relay write preserves the lane invariant. |
| App.FinishSortingKeepsInv | app.py:100-104 | A `finally` block preserves the lane invariant. |
| App.NextKeepsInv | app.py:87-139 | Every step preserves the lane invariant. |
| App.RunKeepsInv | app.py:87-139 | Every run from an invariant state ends in an invariant state. |
| App.InvConsequences | app.py:88 | Under the invariant, at most one thread per lane is spawned or running, and a spawned thread finds its lane AwaitingItem. A waited-on lane is AwaitingItem, and a lane that is not Ready has exactly one thing in flight. |
| App.ReachableHasOneCyclePerLane | app.py:129-135 | In every state reachable from start-up, at most one thread per lane is in flight, and the guard of `sorting_process` never skips. |
| App.StepFollowsStateMachine | app.py:88-139 | In invariant states a lane's status moves only Ready→AwaitingItem (by a scan that then waits for that lane), AwaitingItem→Sorting (by the start of that lane's thread), AwaitingItem→Ready (by the end of the wait for that lane) or Sorting→Ready (by the `finally` block of that lane's thread). |
| App.StatusChangeCause | app.py:88-139 | In any state, a step that changes a lane's status is a scan moving it from Ready to AwaitingItem, the end of the wait for it, the start of one of its threads, or the `finally` block of one of its threads. |
| App.DetectMovesReadyOnly | app.py:129-132 | A scan changes a lane's status only from Ready to AwaitingItem, and then waits for that lane. |
| App.AwaitMovesWaitedOnly | app.py:132-139 | The end of the wait changes the status only of the lane waited on, and only to Ready. |
| App.ReachableFollowsStateMachine | app.py:88-139 | In every state reachable from start-up, every step moves statuses only along the four permitted pairs, each by the step named above. |
| App.BusyLaneIgnoresCode | app.py:129 | A lane code seen while its lane is not Ready changes nothing but the detector's memory. |
| App.TriggerSpawns | app.py:129-136 | A Ready lane's code followed by an early LOW sample yields a `qr` event, AwaitingItem, and one spawned thread, keeping the invariant. |
| App.WritesComplete | app.py:95-99 | The four writes of a running cycle leave the lane at rest and change nothing else but the cycle's progress. |
| App.FinishCompleted | app.py:100-106 | After all four writes the `finally` block logs `sort` with the new count and then the closing event. |
| App.CycleCompletes | app.py:87-106 | A spawned thread that runs to the end brings its lane to Ready with the count one higher. It logs start, `sort` and closing events, in that order, and leaves the relays at rest. |
| App.TimeoutAbandons | app.py:138-139 | A wait with no early LOW sample puts the lane back to Ready, spawns nothing, logs nothing and changes no count. |
| App1.Normalize | app1.py:165 | `data.strip().upper()`: the result is no longer than the payload, has no lower-case ASCII letter and neither starts nor ends with whitespace. |
| App1.NormalizeIsInfix | app1.py:165 | The result of `strip().upper()` is an infix of the upper-cased payload with only whitespace around it. |
| App1.NormalizeAgrees | app1.py:165 | The `strip().upper()` normalisation of `app1.py` gives the same text as the `upper().strip()` of `app.py`. |
| App1.RelayOn | app1.py:31-32 | `RELAY_ON` writes its own pin, and writes LOW iff the relays are active-low. |
| App1.RelayOff | app1.py:33-34 | `RELAY_OFF` writes its own pin, and writes HIGH iff the relays are active-low. |
| App1.PolarityIsOpposite | app1.py:31-34 | `RELAY_ON` and `RELAY_OFF` write opposite levels; ON is LOW iff the relays are active-low. |
| App1.CycleWrites | app1.py:127-130 | A cycle has four writes. |
| App1.CycleWritesAgree | app1.py:124-130 | With active-low relays the cycle writes exactly the levels of `app.py`, and a fault-free cycle ends with pull ON and push OFF. |
| App1.ResetWrites | app1.py:79-83 | Six writes, lane by lane in dictionary order: `RELAY_ON` on pull, then `RELAY_OFF` on push. |
| App1.ResetAgrees | app1.py:79-83 | The reset leaves the same pin map as `app.py`'s reset, although it writes pull before push, and every lane is at rest. |
| App1.Init | app1.py:46-59 | Start-up state: all lanes Ready with count 0, `prev_sensor` all 1, and all relays at rest. |
| App1.Detect | app1.py:163-184 | Same dedup and classification. `NG` logs `qr_ng`. For a lane code the wait begins whatever the lane's status. The `qr` event and AwaitingItem happen for a Ready lane, and otherwise nothing is logged and no lane changes. |
| App1.AwaitItem | app1.py:172-180 | On an arrival a thread is spawned. On a timeout the lane is set to Ready unconditionally. |
| App1.StartSorting | app1.py:116-121 | With no guard, the lane becomes Sorting whatever its status, keeping its count, and its number of running threads grows by one even when one is running already; other lanes and their threads are unchanged. |
| App1.RelayStep | app1.py:127-130 | One `RELAY_ON`/`RELAY_OFF` write of a running cycle moves no pin outside the cycle's own lane, and no lane gains or loses a thread: the thread only advances to its next write. |
| App1.FinishSorting | app1.py:131-137 | On every exit path: the lane is Ready, its count is one higher, and `sort` with the new count is logged. The closing event is logged only after all four writes. |
| App1.SampleLane | app1.py:197-204 | One lane's broadcast: `prev_sensor` and the sensor field take the reading; the log grows by one event exactly when the reading differs from `prev_sensor`, and that event is the `sensor` event with the new reading; `relay_grab` and `relay_push` are 1 iff the pin reads LOW. |
| App1.Tick | app1.py:196-204 | After a tick every lane's `prev_sensor` and sensor field equal the reading. `relay_grab` is 1 iff the pull pin reads LOW, and `relay_push` is 1 iff the push pin reads LOW. |
| App1.TickLogsEdges | app1.py:197-201 | A tick logs only `sensor` events, exactly one for each lane whose reading changed and none for the others. |
| App1.EdgesAreChanges | app1.py:196-201 | The events of a tick number the lanes whose reading changed; each is a `sensor` event, and lane `l`'s event with the new reading is among them iff `l` changed. |
| App1.Next | app1.py:259-261 | Every step keeps the state well formed and only appends to the event log. |
| App1.CountMovesOnlyInFinally | app1.py:135 | A lane's count changes only in a `finally` step of that lane, and by exactly one. |
| App1.RunIsMonotone | app1.py:135 | Over any sequence of steps no count decreases and the log only grows. |
| App1.LaneCodeIsNormal | app1.py:145 | The lane codes are their own normal form. |
| App1.CodeSelectsLane | app1.py:165-167 | A scanned lane code selects its own lane. |
| App1.BusyLaneStillWaits | app1.py:168-173 | A code for a lane that is not Ready logs nothing and changes no lane, yet starts the arrival wait. |
| App1.ScanAndArrive | app1.py:172-176 | A lane code followed by an early LOW sample spawns a thread whatever the lane's status, logging nothing when the lane was not Ready. |
| App1.TimeoutOverridesSorting | app1.py:178-180 | While a lane is Sorting with its cycle running, its code and then a timeout set it to Ready with the cycle still running. |
| App1.SecondCycleDispatched | app1.py:116-120 | While a lane is Sorting with one cycle running, its code and an early LOW sample start a second cycle for the same lane, without a `qr` event. |
| App1.RunAppend | app1.py:259-261 | Running one sequence of steps and then another is running their concatenation. |
| App1.ScanArriveRun | app1.py:163-176 | From any free state that accepts a lane code, the run of a scan of it and an early LOW sample spawns one thread of the lane, leaves running threads alone, frees the loop, remembers the code, and logs nothing when the lane was not Ready. |
| App1.RunToSorting | app1.py:163-176 | From any free state that accepts a lane code, the run of a scan of it, an early LOW sample and the thread start leaves the lane Sorting with one more cycle running and the loop free; when the lane was not Ready, the only event is the start of the cycle. |
| App1.SortingIsReachable | app1.py:163-176 | From start-up, for any times, a lane code, an arrival and the thread start reach the Sorting-with-one-cycle state the two lemmas above start from, with the loop free. |
| App1.TimeoutRun | app1.py:172-180 | From a Sorting lane with one cycle running, the run of a second scan of its code and a timed-out wait leaves it Ready with that cycle still running. |
| App1.SecondCycleRun | app1.py:116-120 | From a Sorting lane with one cycle running, the run of a second scan of its code, an early LOW sample and the thread start leaves it Sorting with two cycles running. |
| App1.TimeoutOverridesFromStartUp | app1.py:172-180 | A run from start-up reaches a state where a lane is Ready while its cycle still runs: it reaches Sorting, its code is seen again more than 3 s later, and the wait times out. |
| App1.SecondCycleFromStartUp | app1.py:116-120 | A run from start-up reaches a state with two cycles of the same lane running: it reaches Sorting, and its code and item are seen again more than 3 s later. |

## Left out

- Sensor reads: the levels of the sensor pins (app.py:24) enter as sampled inputs, the arrival wait's polls and the broadcaster's readings, and are not looked up by pin in the pin map, which holds only the levels written to output pins.

- Camera capture, the frame buffer and the QR decoder. A scan is an input,
  `Skipped` or `Decoded(text)`; the decoder raising and no frame are both
  `Skipped`.
- GPIO setup and the hardware. The output levels after `GPIO.setup` are an
  unknown input to `Init`. An output pin read back by the broadcaster shows
  the level last written to it. Sensor reads are inputs: the samples of an
  arrival wait, or the readings of a broadcast tick.
- Thread scheduling, the locks and every `time.sleep`. Each step is atomic,
  and an environment interleaves them freely. The unsynchronised status
  reads in `app.py` (the guard of `sorting_process` and the Ready check of
  the loop) are treated as atomic, so their races are not modelled.
- `cycle_delay` and `load_local_config`, which is file I/O and JSON parsing.
  Delays do not affect the modelled state.
- Flask routes, MJPEG streaming, the websocket route and the pruning of
  dead clients. A broadcast event is modelled as appended to the log.
- JSON serialisation and `strftime` timestamps. Events carry no timestamp.
- `app.py`'s `broadcast_state`, which only mirrors sensor and relay levels
  into the lane records for display and logs nothing.
- Shutdown, `KeyboardInterrupt` and `GPIO.cleanup`.
- Detector.Accepts: time is integer milliseconds and one clock reading is
  used per loop iteration. The source reads `time.time()` separately for
  the dedup test, for the stored time and for the deadline.
- Text.Upper: maps one character to one character. It upper-cases `a`-`z`,
  the dotless `ı` (to `I`) and the long `ſ` (to `S`), and keeps every other
  character. Python's `upper()` also changes other non-ASCII letters, some
  into several characters (`ß` to `SS`, the ligatures `ﬀ` to `ﬆ` to `FF` to
  `ST`), so the text of an `unknown_qr` event can differ from Python's.
  None of those characters upper-cases into text made only of characters
  of `LOAI1`, `LOAI2`, `LOAI3` and `NG`, so which lane, if any, a payload
  selects is unaffected.
- App.FaultLeavesPullReleased: only the last write of the `try` block
  re-engages the pull relay (app.py:99, app1.py:130), not the `finally`
  block, so a fault before that write leaves pull released. No contract
  promises the relays at rest after a fault.

=== FILE: app.dfy ===
/** The controller of app.py as a transition system. The detection loop,
    its arrival wait and every spawned `sorting_process` thread are split
    into atomic steps that the environment may interleave in any order; the
    camera, the sensor and the clock are parameters of those steps. */
module App {
  import opened Gpio
  import opened Text
  import opened Detector
  import opened Lanes

  /** Everything the controller owns: the lanes, the detector's memory, the
      relay levels, the emitted log, where the detection loop is, the spawned
      sorting threads not yet started and the running ones. */
  datatype Sys = Sys(
    lanes: seq<Lane>,
    memory: Memory,
    pins: PinMap,
    log: seq<Event>,
    wait: Wait,
    spawned: multiset<LaneId>,
    running: multiset<Cycle>)

  predicate Valid(s: Sys)
  {
    Shaped(s.lanes) && Wired(s.pins) && CyclesBounded(s.running)
  }

  /** app.py normalises with `upper()` and then `strip()`: the result is the
      upper-cased payload with its surrounding whitespace removed, so it has
      no lower-case ASCII letter and no surrounding whitespace. */
  function Normalize(raw: string): (r: string)
    ensures |r| <= |raw|
    ensures forall i :: 0 <= i < |r| ==> !('a' <= r[i] <= 'z')
    ensures r == [] || (!IsSpace(r[0]) && !IsSpace(r[|r| - 1]))
    ensures exists a :: InfixAt(Upper(raw), r, a)
  {
    var u := Upper(raw);
    assert |u| == |raw|;
    StripUpperHasNoLower(raw);
    Strip(u)
  }

  /** Normalising twice is normalising once. */
  lemma NormalizeIsIdempotent(raw: string)
    ensures Normalize(Normalize(raw)) == Normalize(raw)
  {
    NormalFormIsFixed(raw);
  }

  /** Lane codes are already in normal form. */
  lemma LaneCodeIsNormal(l: LaneId)
    ensures Normalize(LaneCode(l)) == LaneCode(l)
  {
    var code := LaneCode(l);
    assert forall i :: 0 <= i < |code| ==> UpperChar(code[i]) == code[i];
    NormalFixpoint(code);
  }

  /** So a scanned lane code selects its lane. */
  lemma CodeSelectsLane(l: LaneId)
    ensures Classify(Normalize(LaneCode(l))) == LaneToken(l)
  {
    LaneCodeIsNormal(l);
    ClassifyCode(l);
  }

  // ---------------------------------------------------------------- relays

  /** The relay writes of one cycle: pull released (HIGH), push engaged
      (LOW), push released (HIGH), pull engaged again (LOW). */
  function CycleWrites(l: LaneId): (ws: seq<Write>)
    ensures |ws| == RELAY_STEPS
    ensures forall j :: 0 <= j < |ws| ==> ws[j].pin == PushPin(l) || ws[j].pin == PullPin(l)
  {
    [Write(PullPin(l), High), Write(PushPin(l), Low), Write(PushPin(l), High), Write(PullPin(l), Low)]
  }

  /** The part of `reset_all_relays_to_default` for one lane: push HIGH,
      then pull LOW. */
  function ResetPair(l: LaneId): seq<Write>
  {
    [Write(PushPin(l), High), Write(PullPin(l), Low)]
  }

  /** `reset_all_relays_to_default`: the lanes in order, each releasing its
      push relay and then engaging its pull relay. */
  function ResetWrites(): (ws: seq<Write>)
    ensures |ws| == 2 * 3
    ensures forall l: LaneId :: ws[2 * l] == Write(PushPin(l), High) && ws[2 * l + 1] == Write(PullPin(l), Low)
  {
    ResetPair(0) + ResetPair(1) + ResetPair(2)
  }

  /** A fault-free cycle leaves its lane resting (push HIGH, pull LOW) and no
      other pin changed. */
  lemma CycleEndsAtRest(pins: PinMap, l: LaneId)
    ensures Apply(pins, CycleWrites(l)) == pins[PushPin(l) := High][PullPin(l) := Low]
    ensures AtRest(Apply(pins, CycleWrites(l)), l)
  {
    var ws := CycleWrites(l);
    var r := Apply(pins, ws);
    var want := pins[PushPin(l) := High][PullPin(l) := Low];
    WiringIsInjective(l, l);
    ApplyLastWrite(pins, ws, 2);
    ApplyLastWrite(pins, ws, 3);
    forall p: Pin | p != PushPin(l) && p != PullPin(l)
      ensures (p in r <==> p in want) && (p in r ==> r[p] == want[p])
    {
      ApplyKeeps(pins, ws, p);
    }
    assert r.Keys == want.Keys;
  }

  /** A cycle started from the resting pair returns the pins exactly to
      where they were. */
  lemma CycleFromRestIsNeutral(pins: PinMap, l: LaneId)
    requires AtRest(pins, l)
    ensures Apply(pins, CycleWrites(l)) == pins
  {
    CycleEndsAtRest(pins, l);
    assert pins[PushPin(l) := High][PullPin(l) := Low] == pins;
  }

  /** A fault after the first, second or third write leaves the pull relay
      released (HIGH): nothing on the fault path re-engages it. */
  lemma FaultLeavesPullReleased(pins: PinMap, l: LaneId, k: nat)
    requires 1 <= k < RELAY_STEPS
    ensures PullPin(l) in Apply(pins, CycleWrites(l)[..k])
    ensures Apply(pins, CycleWrites(l)[..k])[PullPin(l)] == High
  {
    var ws := CycleWrites(l)[..k];
    WiringIsInjective(l, l);
    assert LastWriteAt(ws, 0);
    ApplyLastWrite(pins, ws, 0);
  }

  /** The reset leaves exactly the six relay pins updated, in lane order. */
  lemma ResetResult(pins: PinMap)
    ensures Apply(pins, ResetWrites()) ==
              pins[PushPin(0) := High][PullPin(0) := Low]
                  [PushPin(1) := High][PullPin(1) := Low]
                  [PushPin(2) := High][PullPin(2) := Low]
  {
    ApplyAppend(pins, ResetPair(0) + ResetPair(1), ResetPair(2));
    ApplyAppend(pins, ResetPair(0), ResetPair(1));
    var m0 := Apply(pins, ResetPair(0));
    var m1 := Apply(m0, ResetPair(1));
    ApplyTwo(pins, Write(PushPin(0), High), Write(PullPin(0), Low));
    ApplyTwo(m0, Write(PushPin(1), High), Write(PullPin(1), Low));
    ApplyTwo(m1, Write(PushPin(2), High), Write(PullPin(2), Low));
  }

  /** The reset puts every lane at rest and touches no other pin. */
  lemma ResetRestsEveryLane(pins: PinMap)
    ensures forall l: LaneId :: AtRest(Apply(pins, ResetWrites()), l)
    ensures forall p | p in pins && (forall l: LaneId :: p != PushPin(l) && p != PullPin(l)) ::
              p in Apply(pins, ResetWrites()) && Apply(pins, ResetWrites())[p] == pins[p]
  {
    ResetResult(pins);
    WiringIsInjective(0, 1); WiringIsInjective(0, 2); WiringIsInjective(1, 2);
    WiringIsInjective(1, 0); WiringIsInjective(2, 0); WiringIsInjective(2, 1);
    WiringIsInjective(0, 0); WiringIsInjective(1, 1); WiringIsInjective(2, 2);
  }

  // ----------------------------------------------------------------- steps

  /** The state at start-up: `boot` holds whatever levels the output pins
      had after setup, and `reset_all_relays_to_default` has run on them. */
  function Init(boot: PinMap): (s: Sys)
    ensures Valid(s)
    ensures forall l: LaneId :: s.lanes[l].status == Ready && s.lanes[l].count == 0
    ensures forall l: LaneId :: AtRest(s.pins, l)
  {
    ResetRestsEveryLane(boot);
    Sys(InitialLanes(), InitialMemory(), Apply(boot, ResetWrites()), [], Idle, multiset{}, multiset{})
  }

  /** One iteration of `qr_detection_loop` up to the arrival wait. */
  function Detect(s: Sys, d: Decode, now: int): (r: Sys)
    requires Valid(s) && s.wait == Idle
    ensures Valid(r)
    ensures r.pins == s.pins && r.spawned == s.spawned && r.running == s.running
    ensures !ActsOn(s.memory, d, now) ==> r == s
    ensures ActsOn(s.memory, d, now) ==> r.memory == Memory(d.payload, now)
    ensures forall l: LaneId :: r.lanes[l].count == s.lanes[l].count
    ensures r.log == s.log || (|r.log| == |s.log| + 1 && r.log[..|s.log|] == s.log)
    // a lane changes only when its code is acted on while it is Ready
    ensures forall l: LaneId :: r.lanes[l] != s.lanes[l] ==>
              && ActsOn(s.memory, d, now)
              && Classify(Normalize(d.payload)) == LaneToken(l)
              && s.lanes[l].status == Ready
              && r.lanes[l] == s.lanes[l].(status := AwaitingItem)
    ensures ActsOn(s.memory, d, now) ==>
              var norm := Normalize(d.payload);
              match Classify(norm)
              case Reject => r.lanes == s.lanes && r.wait == Idle && r.log == s.log + [NgProduct(norm)]
              case Unknown => r.lanes == s.lanes && r.wait == Idle && r.log == s.log + [UnknownQr(norm)]
              case LaneToken(l) =>
                if s.lanes[l].status == Ready then
                  && r.lanes[l].status == AwaitingItem
                  && r.log == s.log + [Qr(norm)]
                  && r.wait == Waiting(l, now + ARRIVAL_TIMEOUT_MS)
                else r == s.(memory := r.memory)
  {
    if !ActsOn(s.memory, d, now) then s
    else
      var norm := Normalize(d.payload);
      var s' := s.(memory := Remember(s.memory, d.payload, now));
      match Classify(norm)
      case LaneToken(l) =>
        if s.lanes[l].status == Ready then
          s'.(lanes := SetStatus(s.lanes, l, AwaitingItem),
              log := s.log + [Qr(norm)],
              wait := Waiting(l, now + ARRIVAL_TIMEOUT_MS))
        else s'
      case Reject => s'.(log := s.log + [NgProduct(norm)])
      case Unknown => s'.(log := s.log + [UnknownQr(norm)])
  }

  /** The end of the arrival wait: an item seen before the deadline spawns a
      sorting thread and leaves the status alone; a timeout puts the lane
      back to Ready. Either way the loop is free to scan again. */
  function AwaitItem(s: Sys, polls: seq<Poll>): (r: Sys)
    requires Valid(s) && s.wait.Waiting?
    ensures Valid(r)
    ensures r.wait == Idle && r.log == s.log && r.pins == s.pins
    ensures r.memory == s.memory && r.running == s.running
    ensures (exists k :: ArrivesAt(polls, s.wait.deadline, k)) ==>
              r.spawned == s.spawned + multiset{s.wait.lane} && r.lanes == s.lanes
    ensures (forall k :: !ArrivesAt(polls, s.wait.deadline, k)) ==>
              r.spawned == s.spawned && r.lanes == SetStatus(s.lanes, s.wait.lane, Ready)
  {
    var l := s.wait.lane;
    match AwaitArrival(polls, s.wait.deadline)
    case Arrived(_) => s.(wait := Idle, spawned := s.spawned + multiset{l})
    case TimedOut => s.(wait := Idle, lanes := SetStatus(s.lanes, l, Ready))
  }

  /** The opening section of `sorting_process`: a thread whose lane is
      already Sorting returns at once; otherwise the lane becomes Sorting
      and the relay sequence begins. */
  function StartSorting(s: Sys, l: LaneId): (r: Sys)
    requires Valid(s) && l in s.spawned
    ensures Valid(r)
    ensures r.spawned == s.spawned - multiset{l}
    ensures r.memory == s.memory && r.pins == s.pins && r.wait == s.wait
    ensures s.lanes[l].status !in {Ready, AwaitingItem} ==> r == s.(spawned := r.spawned)
    ensures s.lanes[l].status in {Ready, AwaitingItem} ==>
              && r.lanes == SetStatus(s.lanes, l, Sorting)
              && r.log == s.log + [CycleStarted(LaneName(l))]
              && r.running == s.running + multiset{Cycle(l, 0)}
  {
    var s' := s.(spawned := s.spawned - multiset{l});
    if s.lanes[l].status !in {Ready, AwaitingItem} then s'
    else
      s'.(lanes := SetStatus(s.lanes, l, Sorting),
          log := s.log + [CycleStarted(LaneName(l))],
          running := s.running + multiset{Cycle(l, 0)})
  }

  /** One relay write of a running cycle: the cycle's next write takes
      effect on its own lane's relay pair, no other pin moves, and the
      thread advances without any lane gaining or losing a thread. */
  function RelayStep(s: Sys, c: Cycle): (r: Sys)
    requires Valid(s) && c in s.running && c.done < RELAY_STEPS
    ensures Valid(r)
    ensures OnlyLaneMoved(s.pins, r.pins, c.lane)
    ensures forall m: LaneId :: Busy(r.running, m) == Busy(s.running, m)
    ensures Cycle(c.lane, c.done + 1) in r.running
    ensures r.lanes == s.lanes && r.log == s.log && r.memory == s.memory
    ensures r.wait == s.wait && r.spawned == s.spawned
    ensures r.running == s.running - multiset{c} + multiset{Cycle(c.lane, c.done + 1)}
    ensures r.pins == s.pins[CycleWrites(c.lane)[c.done].pin := CycleWrites(c.lane)[c.done].level]
  {
    var w := CycleWrites(c.lane)[c.done];
    WriteStaysOnLane(s.pins, w, c.lane);
    BusyAdvanceAll(s.running, c);
    s.(pins := s.pins[w.pin := w.level],
       running := s.running - multiset{c} + multiset{Cycle(c.lane, c.done + 1)})
  }

  /** The `finally` block of `sorting_process`, reached after all four
      writes or after a fault following `c.done` of them: the lane is Ready,
      its count has grown by one and a `sort` event carries the new count.
      The relays are left as the writes so far left them. */
  function FinishSorting(s: Sys, c: Cycle): (r: Sys)
    requires Valid(s) && c in s.running
    ensures Valid(r)
    ensures r.lanes[c.lane].status == Ready
    ensures r.lanes[c.lane].count == s.lanes[c.lane].count + 1
    ensures forall m: LaneId :: m != c.lane ==> r.lanes[m] == s.lanes[m]
    ensures r.log == s.log + FinishEvents(LaneName(c.lane), r.lanes[c.lane].count, c.done < RELAY_STEPS)
    ensures r.pins == s.pins && r.memory == s.memory && r.wait == s.wait && r.spawned == s.spawned
    ensures r.running == s.running - multiset{c}
  {
    var lanes := CompleteCycle(s.lanes, c.lane);
    s.(lanes := lanes,
       log := s.log + FinishEvents(LaneName(c.lane), lanes[c.lane].count, c.done < RELAY_STEPS),
       running := s.running - multiset{c})
  }

  /** What the environment may do next. */
  datatype Step =
    | Scan(decode: Decode, now: int)
    | Arrive(polls: seq<Poll>)
    | Start(lane: LaneId)
    | Actuate(cycle: Cycle)
    | Finish(cycle: Cycle)

  predicate Enabled(s: Sys, step: Step)
  {
    match step
    case Scan(_, _) => s.wait == Idle
    case Arrive(_) => s.wait.Waiting?
    case Start(l) => l in s.spawned
    case Actuate(c) => c in s.running && c.done < RELAY_STEPS
    case Finish(c) => c in s.running
  }

  /** One step of the system; a step that is not enabled changes nothing. */
  function Next(s: Sys, step: Step): (r: Sys)
    requires Valid(s)
    ensures Valid(r)
    ensures |s.log| <= |r.log| && r.log[..|s.log|] == s.log
  {
    if !Enabled(s, step) then s
    else
      match step
      case Scan(d, now) => Detect(s, d, now)
      case Arrive(polls) => AwaitItem(s, polls)
      case Start(l) => StartSorting(s, l)
      case Actuate(c) => RelayStep(s, c)
      case Finish(c) => FinishSorting(s, c)
  }

  function Run(s: Sys, steps: seq<Step>): (r: Sys)
    requires Valid(s)
    ensures Valid(r)
    decreases |steps|
  {
    if steps == [] then s else Run(Next(s, steps[0]), steps[1..])
  }

  // ------------------------------------------------------------ properties

  /** A lane's count moves only in the `finally` block, by exactly one. */
  lemma CountMovesOnlyInFinally(s: Sys, step: Step, l: LaneId)
    requires Valid(s)
    ensures Next(s, step).lanes[l].count ==
              s.lanes[l].count + (if Enabled(s, step) && step.Finish? && step.cycle.lane == l then 1 else 0)
  {
    if Enabled(s, step) {
      match step
      case Scan(d, now) => ScanKeepsCount(s, d, now, l);
      case Arrive(polls) =>
      case Start(m) =>
      case Actuate(c) =>
      case Finish(c) =>
    }
  }

  /** A scan never changes a count. */
  lemma ScanKeepsCount(s: Sys, d: Decode, now: int, l: LaneId)
    requires Valid(s) && s.wait == Idle
    ensures Next(s, Scan(d, now)).lanes[l].count == s.lanes[l].count
  {
    assert Next(s, Scan(d, now)) == Detect(s, d, now);
  }

  /** Over any run, the log only grows and no count ever decreases. */
  lemma {:induction false} RunIsMonotone(s: Sys, steps: seq<Step>)
    requires Valid(s)
    ensures forall l: LaneId :: Run(s, steps).lanes[l].count >= s.lanes[l].count
    ensures |s.log| <= |Run(s, steps).log| && Run(s, steps).log[..|s.log|] == s.log
    decreases |steps|
  {
    if steps != [] {
      var s' := Next(s, steps[0]);
      forall l: LaneId ensures s'.lanes[l].count >= s.lanes[l].count {
        CountMovesOnlyInFinally(s, steps[0], l);
      }
      RunIsMonotone(s', steps[1..]);
    }
  }

  /** How the status of a lane lines up with the detection loop and the
      threads: Ready means nothing is in flight for it; AwaitingItem means
      either the loop waits for its item or exactly one thread was spawned
      and has not started; Sorting means exactly one cycle is running. */
  predicate LaneInv(s: Sys, l: LaneId)
    requires Valid(s)
  {
    match s.lanes[l].status
    case Ready => !WaitsOn(s.wait, l) && s.spawned[l] == 0 && Busy(s.running, l) == 0
    case AwaitingItem =>
      && Busy(s.running, l) == 0
      && (if WaitsOn(s.wait, l) then s.spawned[l] == 0 else s.spawned[l] == 1)
    case Sorting => !WaitsOn(s.wait, l) && s.spawned[l] == 0 && Busy(s.running, l) == 1
  }

  predicate Inv(s: Sys)
  {
    Valid(s) && forall l: LaneId :: LaneInv(s, l)
  }

  lemma InitSatisfiesInv(boot: PinMap)
    ensures Inv(Init(boot))
  {
  }

  lemma DetectKeepsInv(s: Sys, d: Decode, now: int)
    requires Inv(s) && s.wait == Idle
    ensures Inv(Detect(s, d, now))
  {
    forall l: LaneId ensures LaneInv(Detect(s, d, now), l) {
      DetectKeepsLaneInv(s, d, now, l);
    }
  }

  lemma DetectKeepsLaneInv(s: Sys, d: Decode, now: int, l: LaneId)
    requires Inv(s) && s.wait == Idle
    ensures LaneInv(Detect(s, d, now), l)
  {
    var r := Detect(s, d, now);
    assert LaneInv(s, l);
    if ActsOn(s.memory, d, now) {
      var t := Classify(Normalize(d.payload));
      if t.LaneToken? && s.lanes[t.lane].status == Ready {
        assert r.wait == Waiting(t.lane, now + ARRIVAL_TIMEOUT_MS);
      } else {
        assert r.lanes == s.lanes && r.wait == Idle;
      }
    }
  }

  lemma AwaitItemKeepsInv(s: Sys, polls: seq<Poll>)
    requires Inv(s) && s.wait.Waiting?
    ensures Inv(AwaitItem(s, polls))
  {
    var r := AwaitItem(s, polls);
    forall l: LaneId ensures LaneInv(r, l) {
      assert LaneInv(s, l);
    }
  }

  lemma StartSortingKeepsInv(s: Sys, l: LaneId)
    requires Inv(s) && l in s.spawned
    ensures Inv(StartSorting(s, l))
  {
    var r := StartSorting(s, l);
    forall m: LaneId ensures LaneInv(r, m) {
      assert LaneInv(s, m);
    }
  }

  lemma RelayStepKeepsInv(s: Sys, c: Cycle)
    requires Inv(s) && c in s.running && c.done < RELAY_STEPS
    ensures Inv(RelayStep(s, c))
  {
    var r := RelayStep(s, c);
    forall m: LaneId ensures LaneInv(r, m) {
      assert LaneInv(s, m);
      BusyAdvance(s.running, c, m);
    }
  }

  lemma FinishSortingKeepsInv(s: Sys, c: Cycle)
    requires Inv(s) && c in s.running
    ensures Inv(FinishSorting(s, c))
  {
    var r := FinishSorting(s, c);
    BusyCounts(s.running, c);
    forall m: LaneId ensures LaneInv(r, m) {
      assert LaneInv(s, m);
      BusyRemove(s.running, c, m);
    }
  }

  /** The invariant holds after every step. */
  lemma NextKeepsInv(s: Sys, step: Step)
    requires Inv(s)
    ensures Inv(Next(s, step))
  {
    if Enabled(s, step) {
      match step
      case Scan(d, now) => DetectKeepsInv(s, d, now);
      case Arrive(polls) => AwaitItemKeepsInv(s, polls);
      case Start(l) => StartSortingKeepsInv(s, l);
      case Actuate(c) => RelayStepKeepsInv(s, c);
      case Finish(c) => FinishSortingKeepsInv(s, c);
    }
  }

  /** Every state reachable from start-up satisfies the invariant. */
  lemma {:induction false} RunKeepsInv(s: Sys, steps: seq<Step>)
    requires Inv(s)
    ensures Inv(Run(s, steps))
    decreases |steps|
  {
    if steps != [] {
      NextKeepsInv(s, steps[0]);
      RunKeepsInv(Next(s, steps[0]), steps[1..]);
    }
  }

  /** Consequences of the invariant: at most one thread per lane is in
      flight, the status guard of `sorting_process` never turns a thread
      away, and a timeout only ever reverts a lane that is AwaitingItem. */
  lemma InvConsequences(s: Sys, l: LaneId)
    requires Inv(s)
    ensures s.spawned[l] + Busy(s.running, l) <= 1
    ensures l in s.spawned ==> s.lanes[l].status == AwaitingItem
    ensures WaitsOn(s.wait, l) ==> s.lanes[l].status == AwaitingItem && s.spawned[l] == 0
    ensures s.lanes[l].status != Ready ==> s.spawned[l] + Busy(s.running, l) + (if WaitsOn(s.wait, l) then 1 else 0) == 1
  {
    assert LaneInv(s, l);
  }

  /** In every state reachable from start-up, at most one sorting thread of
      a lane is spawned or running, and a spawned thread always finds its
      lane AwaitingItem, so the guard of `sorting_process` never skips. */
  lemma ReachableHasOneCyclePerLane(boot: PinMap, steps: seq<Step>, l: LaneId)
    ensures var s := Run(Init(boot), steps);
            && s.spawned[l] + Busy(s.running, l) <= 1
            && (l in s.spawned ==> s.lanes[l].status == AwaitingItem)
  {
    InitSatisfiesInv(boot);
    RunKeepsInv(Init(boot), steps);
    InvConsequences(Run(Init(boot), steps), l);
  }

  /** The permitted status changes: Ready to AwaitingItem, AwaitingItem to
      Sorting or back to Ready, Sorting to Ready. */
  predicate Allowed(a: Status, b: Status)
  {
    a == b || (a, b) in {(Ready, AwaitingItem), (AwaitingItem, Sorting), (AwaitingItem, Ready), (Sorting, Ready)}
  }

  /** From any state satisfying the invariant, every step changes each
      lane's status only along the state machine, and each move is made by
      the step the program makes it in: a scan of the lane's code, the end
      of the wait for that lane, the start of a thread of the lane, or that
      thread's `finally` block. */
  lemma StepFollowsStateMachine(s: Sys, step: Step, l: LaneId)
    requires Inv(s)
    ensures Allowed(s.lanes[l].status, Next(s, step).lanes[l].status)
    ensures s.lanes[l].status == Ready && Next(s, step).lanes[l].status == AwaitingItem ==>
              step.Scan? && Next(s, step).wait == Waiting(l, step.now + ARRIVAL_TIMEOUT_MS)
    ensures s.lanes[l].status == AwaitingItem && Next(s, step).lanes[l].status == Sorting ==>
              step.Start? && step.lane == l
    ensures s.lanes[l].status == AwaitingItem && Next(s, step).lanes[l].status == Ready ==>
              step.Arrive? && WaitsOn(s.wait, l)
    ensures s.lanes[l].status == Sorting && Next(s, step).lanes[l].status == Ready ==>
              step.Finish? && step.cycle.lane == l
  {
    assert LaneInv(s, l);
    StatusChangeCause(s, step, l);
    if Enabled(s, step) && step.Finish? && step.cycle.lane == l {
      BusyCounts(s.running, step.cycle);
    }
  }

  /** Which step changes a lane's status, and to what, in any state. */
  lemma StatusChangeCause(s: Sys, step: Step, l: LaneId)
    requires Valid(s)
    ensures var r := Next(s, step);
            r.lanes[l].status != s.lanes[l].status ==>
              && Enabled(s, step)
              && (|| (step.Scan? && s.lanes[l].status == Ready && r.lanes[l].status == AwaitingItem
                        && r.wait == Waiting(l, step.now + ARRIVAL_TIMEOUT_MS))
                  || (step.Arrive? && WaitsOn(s.wait, l) && r.lanes[l].status == Ready)
                  || (step.Start? && step.lane == l && r.lanes[l].status == Sorting)
                  || (step.Finish? && step.cycle.lane == l && r.lanes[l].status == Ready))
  {
    if Enabled(s, step) {
      var r := Next(s, step);
      match step
      case Scan(d, now) =>
        assert r == Detect(s, d, now);
        DetectMovesReadyOnly(s, d, now, l);
      case Arrive(polls) =>
        assert r == AwaitItem(s, polls);
        AwaitMovesWaitedOnly(s, polls, l);
      case Start(m) =>
        assert r == StartSorting(s, m);
      case Actuate(c) =>
        assert r == RelayStep(s, c);
      case Finish(c) =>
        assert r == FinishSorting(s, c);
    }
  }

  /** The end of the wait moves only the waited-on lane, back to Ready. */
  lemma AwaitMovesWaitedOnly(s: Sys, polls: seq<Poll>, l: LaneId)
    requires Valid(s) && s.wait.Waiting?
    ensures var r := AwaitItem(s, polls);
            r.lanes[l].status != s.lanes[l].status ==> WaitsOn(s.wait, l) && r.lanes[l].status == Ready
  {
  }

  /** A scan moves a lane's status only from Ready to AwaitingItem, and
      then waits for that lane. */
  lemma DetectMovesReadyOnly(s: Sys, d: Decode, now: int, l: LaneId)
    requires Valid(s) && s.wait == Idle
    ensures var r := Detect(s, d, now);
            r.lanes[l].status != s.lanes[l].status ==>
              && s.lanes[l].status == Ready && r.lanes[l].status == AwaitingItem
              && r.wait == Waiting(l, now + ARRIVAL_TIMEOUT_MS)
  {
  }

  /** The state machine is followed in every state reachable from start-up. */
  lemma ReachableFollowsStateMachine(boot: PinMap, steps: seq<Step>, step: Step, l: LaneId)
    ensures var s := Run(Init(boot), steps);
            var a, b := s.lanes[l].status, Next(s, step).lanes[l].status;
            && Allowed(a, b)
            && (a == Ready && b == AwaitingItem ==>
                  step.Scan? && Next(s, step).wait == Waiting(l, step.now + ARRIVAL_TIMEOUT_MS))
            && (a == AwaitingItem && b == Sorting ==> step.Start? && step.lane == l)
            && (a == AwaitingItem && b == Ready ==> step.Arrive? && WaitsOn(s.wait, l))
            && (a == Sorting && b == Ready ==> step.Finish? && step.cycle.lane == l)
  {
    InitSatisfiesInv(boot);
    RunKeepsInv(Init(boot), steps);
    StepFollowsStateMachine(Run(Init(boot), steps), step, l);
  }

  /** A detection of a lane whose status is not Ready changes nothing but
      the detector's memory: no event, no status change, no wait. */
  lemma BusyLaneIgnoresCode(s: Sys, l: LaneId, now: int)
    requires Valid(s) && s.wait == Idle && s.lanes[l].status != Ready
    requires Accepts(s.memory, LaneCode(l), now)
    ensures Detect(s, Decoded(LaneCode(l)), now) == s.(memory := Memory(LaneCode(l), now))
  {
    CodeSelectsLane(l);
  }

  /** A lane code seen while the lane is Ready, and the item arriving before
      the deadline, leave the lane AwaitingItem with one thread spawned and a
      `qr` event logged. */
  lemma TriggerSpawns(s: Sys, l: LaneId, now: int, at: int)
    requires Inv(s) && s.wait == Idle && s.lanes[l].status == Ready
    requires Accepts(s.memory, LaneCode(l), now) && at < now + ARRIVAL_TIMEOUT_MS
    ensures var s1 := Detect(s, Decoded(LaneCode(l)), now);
            s1.wait.Waiting? &&
            var r := AwaitItem(s1, [Poll(at, Low)]);
            && r.lanes == SetStatus(s.lanes, l, AwaitingItem)
            && r.log == s.log + [Qr(LaneCode(l))]
            && r.spawned == s.spawned + multiset{l}
            && r.wait == Idle && r.pins == s.pins && r.running == s.running
            && Inv(r)
  {
    CodeSelectsLane(l);
    assert LaneCode(l) == Normalize(LaneCode(l));
    var s1 := Detect(s, Decoded(LaneCode(l)), now);
    assert s1.wait == Waiting(l, now + ARRIVAL_TIMEOUT_MS);
    assert ArrivesAt([Poll(at, Low)], now + ARRIVAL_TIMEOUT_MS, 0);
    DetectKeepsInv(s, Decoded(LaneCode(l)), now);
    AwaitItemKeepsInv(s1, [Poll(at, Low)]);
  }

  /** The `try` block run without a fault: the four writes of a running
      cycle leave its lane's relays at rest, touch no other pin, and change
      nothing else but the thread's progress. */
  lemma WritesComplete(s: Sys, l: LaneId)
    requires Valid(s) && Cycle(l, 0) in s.running
    ensures var s1 := RelayStep(s, Cycle(l, 0));
            Cycle(l, 1) in s1.running &&
            var s2 := RelayStep(s1, Cycle(l, 1));
            Cycle(l, 2) in s2.running &&
            var s3 := RelayStep(s2, Cycle(l, 2));
            Cycle(l, 3) in s3.running &&
            var r := RelayStep(s3, Cycle(l, 3));
            && r == s.(pins := r.pins, running := r.running)
            && r.pins == s.pins[PushPin(l) := High][PullPin(l) := Low]
            && r.running == s.running - multiset{Cycle(l, 0)} + multiset{Cycle(l, 4)}
  {
    FirstTwoWrites(s, l);
    var s2 := RelayStep(RelayStep(s, Cycle(l, 0)), Cycle(l, 1));
    LastTwoWrites(s2, l);
    WiringIsInjective(l, l);
    OverwritePair(s.pins, PullPin(l), PushPin(l), High, Low, High, Low);
    assert s.running - multiset{Cycle(l, 0)} + multiset{Cycle(l, 2)} - multiset{Cycle(l, 2)} + multiset{Cycle(l, 4)}
        == s.running - multiset{Cycle(l, 0)} + multiset{Cycle(l, 4)};
  }

  /** The first half of the `try` block: pull released, push engaged. */
  lemma FirstTwoWrites(s: Sys, l: LaneId)
    requires Valid(s) && Cycle(l, 0) in s.running
    ensures var s1 := RelayStep(s, Cycle(l, 0));
            Cycle(l, 1) in s1.running &&
            var r := RelayStep(s1, Cycle(l, 1));
            && r == s.(pins := r.pins, running := r.running)
            && r.pins == s.pins[PullPin(l) := High][PushPin(l) := Low]
            && r.running == s.running - multiset{Cycle(l, 0)} + multiset{Cycle(l, 2)}
  {
    var s1 := RelayStep(s, Cycle(l, 0));
    assert s1.running == s.running - multiset{Cycle(l, 0)} + multiset{Cycle(l, 1)};
  }

  /** The second half: push released, pull engaged again. */
  lemma LastTwoWrites(s: Sys, l: LaneId)
    requires Valid(s) && Cycle(l, 2) in s.running
    ensures var s1 := RelayStep(s, Cycle(l, 2));
            Cycle(l, 3) in s1.running &&
            var r := RelayStep(s1, Cycle(l, 3));
            && r == s.(pins := r.pins, running := r.running)
            && r.pins == s.pins[PushPin(l) := High][PullPin(l) := Low]
            && r.running == s.running - multiset{Cycle(l, 2)} + multiset{Cycle(l, 4)}
  {
    var s1 := RelayStep(s, Cycle(l, 2));
    assert s1.running == s.running - multiset{Cycle(l, 2)} + multiset{Cycle(l, 3)};
  }

  /** The `finally` block of a cycle whose four writes all took place: the
      lane is Ready with the count one higher, and the `sort` event and the
      closing event are logged. */
  lemma FinishCompleted(s: Sys, l: LaneId)
    requires Valid(s) && Cycle(l, RELAY_STEPS) in s.running
    ensures var r := FinishSorting(s, Cycle(l, RELAY_STEPS));
            && r.lanes == CompleteCycle(s.lanes, l)
            && r.log == s.log + [Sorted(LaneName(l), s.lanes[l].count + 1), CycleFinished(LaneName(l))]
            && r.pins == s.pins && r.spawned == s.spawned
            && r.running == s.running - multiset{Cycle(l, RELAY_STEPS)}
  {
    var r := FinishSorting(s, Cycle(l, RELAY_STEPS));
    assert r.lanes == CompleteCycle(s.lanes, l);
    var name := LaneName(l);
    assert FinishEvents(name, s.lanes[l].count + 1, false) == [Sorted(name, s.lanes[l].count + 1), CycleFinished(name)];
  }

  /** The state a fault-free `try` block leaves behind is well formed. */
  lemma WritesDoneIsValid(s: Sys, l: LaneId)
    requires Valid(s) && Cycle(l, 0) in s.running
    ensures var s4 := s.(pins := s.pins[PushPin(l) := High][PullPin(l) := Low],
                         running := s.running - multiset{Cycle(l, 0)} + multiset{Cycle(l, 4)});
            && Valid(s4) && Cycle(l, 4) in s4.running
            && s4.running - multiset{Cycle(l, 4)} == s.running - multiset{Cycle(l, 0)}
  {
    var s4 := s.(pins := s.pins[PushPin(l) := High][PullPin(l) := Low],
                 running := s.running - multiset{Cycle(l, 0)} + multiset{Cycle(l, 4)});
    assert CyclesBounded(s4.running) by {
      forall c | c in s4.running ensures c.done <= RELAY_STEPS {
        if c != Cycle(l, 4) { assert c in s.running; }
      }
    }
  }

  /** A spawned thread that starts, performs its four writes without a
      fault (WritesComplete) and runs its `finally` block brings its lane
      back to Ready with the count one higher, logs the start, the `sort`
      event with the new count and the closing event, and leaves the relays
      at rest with no other pin changed. */
  lemma CycleCompletes(s: Sys, l: LaneId)
    requires Valid(s) && l in s.spawned && s.lanes[l].status == AwaitingItem
    ensures var s1 := StartSorting(s, l);
            && Cycle(l, 0) in s1.running
            && var s5 := s1.(pins := s1.pins[PushPin(l) := High][PullPin(l) := Low],
                             running := s1.running - multiset{Cycle(l, 0)} + multiset{Cycle(l, 4)});
               && Valid(s5) && Cycle(l, 4) in s5.running
               && var r := FinishSorting(s5, Cycle(l, 4));
                  && r.lanes == CompleteCycle(s.lanes, l)
                  && r.log == s.log + [CycleStarted(LaneName(l)), Sorted(LaneName(l), s.lanes[l].count + 1),
                                       CycleFinished(LaneName(l))]
                  && r.pins == s.pins[PushPin(l) := High][PullPin(l) := Low]
                  && r.spawned == s.spawned - multiset{l} && r.running == s.running
  {
    var s1 := StartSorting(s, l);
    WritesDoneIsValid(s1, l);
    var s5 := s1.(pins := s1.pins[PushPin(l) := High][PullPin(l) := Low],
                  running := s1.running - multiset{Cycle(l, 0)} + multiset{Cycle(l, 4)});
    FinishCompleted(s5, l);
    assert CompleteCycle(s1.lanes, l) == CompleteCycle(s.lanes, l);
    assert s1.running - multiset{Cycle(l, 0)} == s.running;
  }

  /** The abandon path: when no sample before the deadline reads LOW, the
      lane returns to Ready, no thread is spawned and no count changes. */
  lemma TimeoutAbandons(s: Sys, polls: seq<Poll>)
    requires Inv(s) && s.wait.Waiting?
    requires forall k :: 0 <= k < |polls| ==> !ArrivesAt(polls, s.wait.deadline, k)
    ensures var r := Next(s, Arrive(polls));
            && r.lanes[s.wait.lane].status == Ready
            && r.spawned == s.spawned && r.running == s.running
            && (forall l: LaneId :: r.lanes[l].count == s.lanes[l].count)
            && r.log == s.log
  {
    assert forall k :: !ArrivesAt(polls, s.wait.deadline, k);
  }
}

=== FILE: app1.dfy ===
/** The controller of app1.py as a transition system, in the same terms as
    the model of app.py, plus the per-tick sampling of the broadcaster. Two
    differences in the source matter: the arrival wait runs for every
    recognised lane code, whether or not the lane was Ready, and
    `sorting_process` has no status guard. */
module App1 {
  import opened Gpio
  import opened Text
  import opened Detector
  import opened Lanes
  import App

  /** The live I/O fields of a lane as the broadcaster last sampled them. */
  datatype Readings = Readings(sensor: Bit, relayGrab: Bit, relayPush: Bit)

  /** As in app.py, plus the sampled readings and `prev_sensor`, the
      broadcaster's memory of the last sensor value per lane. */
  datatype Sys = Sys(
    lanes: seq<Lane>,
    readings: seq<Readings>,
    prevSensor: seq<Bit>,
    memory: Memory,
    pins: PinMap,
    log: seq<Event>,
    wait: Wait,
    spawned: multiset<LaneId>,
    running: multiset<Cycle>)

  predicate Valid(s: Sys)
  {
    && Shaped(s.lanes) && |s.readings| == 3 && |s.prevSensor| == 3
    && Wired(s.pins) && CyclesBounded(s.running)
  }

  /** app1.py normalises with `strip()` and then `upper()`: the result has
      no lower-case ASCII letter and no surrounding whitespace. */
  function Normalize(raw: string): (r: string)
    ensures |r| <= |raw|
    ensures forall i :: 0 <= i < |r| ==> !('a' <= r[i] <= 'z')
    ensures r == [] || (!IsSpace(r[0]) && !IsSpace(r[|r| - 1]))
  {
    Upper(Strip(raw))
  }

  /** The result is the upper-cased payload with its surrounding whitespace
      removed. */
  lemma NormalizeIsInfix(raw: string)
    ensures exists a :: InfixAt(Upper(raw), Normalize(raw), a)
  {
    NormalizeAgrees(raw);
  }

  /** Both variants normalise every payload to the same text. */
  lemma NormalizeAgrees(raw: string)
    ensures Normalize(raw) == App.Normalize(raw)
  {
    StripUpperCommute(raw);
  }

  // ---------------------------------------------------------------- relays

  /** Relays that engage on a LOW level. */
  const ACTIVE_LOW: bool := true

  function OnLevel(activeLow: bool): Level
  {
    if activeLow then Low else High
  }

  function OffLevel(activeLow: bool): Level
  {
    if activeLow then High else Low
  }

  /** `RELAY_ON` and `RELAY_OFF` always write opposite levels, and with
      active-low relays ON is LOW. */
  lemma PolarityIsOpposite(activeLow: bool)
    ensures OnLevel(activeLow) != OffLevel(activeLow)
    ensures activeLow <==> OnLevel(activeLow) == Low
  {
  }

  /** `RELAY_ON`: writes the pin's engaging level, LOW for active-low relays. */
  function RelayOn(p: Pin): (w: Write)
    ensures w.pin == p && (w.level == Low <==> ACTIVE_LOW)
  {
    Write(p, OnLevel(ACTIVE_LOW))
  }

  /** `RELAY_OFF`: writes the pin's releasing level, HIGH for active-low relays. */
  function RelayOff(p: Pin): (w: Write)
    ensures w.pin == p && (w.level == High <==> ACTIVE_LOW)
  {
    Write(p, OffLevel(ACTIVE_LOW))
  }

  /** The writes of one cycle: pull OFF, push ON, push OFF, pull ON. */
  function CycleWrites(l: LaneId): (ws: seq<Write>)
    ensures |ws| == RELAY_STEPS
  {
    [RelayOff(PullPin(l)), RelayOn(PushPin(l)), RelayOff(PushPin(l)), RelayOn(PullPin(l))]
  }

  /** The part of `reset_all_relays_to_default` for one lane: pull ON, then
      push OFF. */
  function ResetPair(l: LaneId): seq<Write>
  {
    [RelayOn(PullPin(l)), RelayOff(PushPin(l))]
  }

  /** `reset_all_relays_to_default`: the lanes in order, each engaging its
      pull relay and then releasing its push relay. */
  function ResetWrites(): (ws: seq<Write>)
    ensures |ws| == 2 * 3
    ensures forall l: LaneId :: ws[2 * l] == RelayOn(PullPin(l)) && ws[2 * l + 1] == RelayOff(PushPin(l))
  {
    ResetPair(0) + ResetPair(1) + ResetPair(2)
  }

  /** With active-low relays the cycle drives the same levels, in the same
      order, as app.py's; so a fault-free cycle ends with pull ON and push
      OFF. */
  lemma CycleWritesAgree(pins: PinMap, l: LaneId)
    ensures CycleWrites(l) == App.CycleWrites(l)
    ensures AtRest(Apply(pins, CycleWrites(l)), l)
  {
    App.CycleEndsAtRest(pins, l);
  }

  /** The reset leaves every pin as app.py's reset does (pull ON, push OFF),
      although it writes each pair in the other order. */
  lemma ResetAgrees(pins: PinMap)
    ensures Apply(pins, ResetWrites()) == Apply(pins, App.ResetWrites())
    ensures forall l: LaneId :: AtRest(Apply(pins, ResetWrites()), l)
  {
    ApplyAppend(pins, ResetPair(0) + ResetPair(1), ResetPair(2));
    ApplyAppend(pins, ResetPair(0), ResetPair(1));
    var m0 := Apply(pins, ResetPair(0));
    var m1 := Apply(m0, ResetPair(1));
    ApplyTwo(pins, RelayOn(PullPin(0)), RelayOff(PushPin(0)));
    ApplyTwo(m0, RelayOn(PullPin(1)), RelayOff(PushPin(1)));
    ApplyTwo(m1, RelayOn(PullPin(2)), RelayOff(PushPin(2)));
    WiringIsInjective(0, 0); WiringIsInjective(1, 1); WiringIsInjective(2, 2);
    SwapPair(pins, PullPin(0), PushPin(0), Low, High);
    var n0 := pins[PushPin(0) := High][PullPin(0) := Low];
    SwapPair(n0, PullPin(1), PushPin(1), Low, High);
    var n1 := n0[PushPin(1) := High][PullPin(1) := Low];
    SwapPair(n1, PullPin(2), PushPin(2), Low, High);
    App.ResetResult(pins);
    App.ResetRestsEveryLane(pins);
  }

  // ----------------------------------------------------------------- steps

  /** The state at start-up: sensors and relay fields read 1 until the first
      broadcast, `prev_sensor` is all 1, and the relays have been reset from whatever levels `boot`
      gives them after setup. */
  function Init(boot: PinMap): (s: Sys)
    ensures Valid(s)
    ensures forall l: LaneId :: s.lanes[l].status == Ready && s.lanes[l].count == 0
    ensures forall l: LaneId :: s.prevSensor[l] == 1 && AtRest(s.pins, l)
  {
    ResetAgrees(boot);
    Sys(InitialLanes(), [Readings(1, 1, 1), Readings(1, 1, 1), Readings(1, 1, 1)], [1, 1, 1],
        InitialMemory(), Apply(boot, ResetWrites()), [], Idle, multiset{}, multiset{})
  }

  /** One iteration of `qr_detection_loop` up to the arrival wait. The
      `qr` event and the move to AwaitingItem happen only for a Ready lane,
      but the wait begins for every recognised lane code. */
  function Detect(s: Sys, d: Decode, now: int): (r: Sys)
    requires Valid(s) && s.wait == Idle
    ensures Valid(r)
    ensures r.pins == s.pins && r.spawned == s.spawned && r.running == s.running
    ensures r.readings == s.readings && r.prevSensor == s.prevSensor
    ensures !ActsOn(s.memory, d, now) ==> r == s
    ensures ActsOn(s.memory, d, now) ==> r.memory == Memory(d.payload, now)
    ensures forall l: LaneId :: r.lanes[l].count == s.lanes[l].count
    ensures r.log == s.log || (|r.log| == |s.log| + 1 && r.log[..|s.log|] == s.log)
    ensures forall l: LaneId :: r.lanes[l] != s.lanes[l] ==>
              && ActsOn(s.memory, d, now)
              && Classify(Normalize(d.payload)) == LaneToken(l)
              && s.lanes[l].status == Ready
              && r.lanes[l] == s.lanes[l].(status := AwaitingItem)
    ensures ActsOn(s.memory, d, now) ==>
              var norm := Normalize(d.payload);
              match Classify(norm)
              case Reject => r.lanes == s.lanes && r.wait == Idle && r.log == s.log + [QrNg(norm)]
              case Unknown => r.lanes == s.lanes && r.wait == Idle && r.log == s.log + [UnknownQr(norm)]
              case LaneToken(l) =>
                && r.wait == Waiting(l, now + ARRIVAL_TIMEOUT_MS)
                && (s.lanes[l].status == Ready ==>
                      r.lanes == SetStatus(s.lanes, l, AwaitingItem) && r.log == s.log + [Qr(norm)])
                && (s.lanes[l].status != Ready ==> r.lanes == s.lanes && r.log == s.log)
  {
    if !ActsOn(s.memory, d, now) then s
    else
      var norm := Normalize(d.payload);
      var s' := s.(memory := Remember(s.memory, d.payload, now));
      match Classify(norm)
      case LaneToken(l) =>
        var waiting := Waiting(l, now + ARRIVAL_TIMEOUT_MS);
        if s.lanes[l].status == Ready then
          s'.(lanes := SetStatus(s.lanes, l, AwaitingItem), log := s.log + [Qr(norm)], wait := waiting)
        else s'.(wait := waiting)
      case Reject => s'.(log := s.log + [QrNg(norm)])
      case Unknown => s'.(log := s.log + [UnknownQr(norm)])
  }

  /** The end of the arrival wait: an item seen before the deadline spawns a
      sorting thread; a timeout sets the lane to Ready whatever its status. */
  function AwaitItem(s: Sys, polls: seq<Poll>): (r: Sys)
    requires Valid(s) && s.wait.Waiting?
    ensures Valid(r)
    ensures r.wait == Idle && r.log == s.log && r.pins == s.pins
    ensures r.memory == s.memory && r.running == s.running
    ensures r.readings == s.readings && r.prevSensor == s.prevSensor
    ensures (exists k :: ArrivesAt(polls, s.wait.deadline, k)) ==>
              r.spawned == s.spawned + multiset{s.wait.lane} && r.lanes == s.lanes
    ensures (forall k :: !ArrivesAt(polls, s.wait.deadline, k)) ==>
              r.spawned == s.spawned && r.lanes == SetStatus(s.lanes, s.wait.lane, Ready)
  {
    var l := s.wait.lane;
    match AwaitArrival(polls, s.wait.deadline)
    case Arrived(_) => s.(wait := Idle, spawned := s.spawned + multiset{l})
    case TimedOut => s.(wait := Idle, lanes := SetStatus(s.lanes, l, Ready))
  }

  /** The opening section of `sorting_process`, which has no guard: the
      lane becomes Sorting whatever its status, and one more cycle of it
      runs even when one is running already. */
  function StartSorting(s: Sys, l: LaneId): (r: Sys)
    requires Valid(s) && l in s.spawned
    ensures Valid(r)
    ensures r.lanes[l].status == Sorting && r.lanes[l].count == s.lanes[l].count
    ensures Busy(r.running, l) == Busy(s.running, l) + 1
    ensures forall m: LaneId :: m != l ==> r.lanes[m] == s.lanes[m] && Busy(r.running, m) == Busy(s.running, m)
    ensures r.spawned == s.spawned - multiset{l}
    ensures r.memory == s.memory && r.pins == s.pins && r.wait == s.wait
    ensures r.readings == s.readings && r.prevSensor == s.prevSensor
    ensures r.lanes == SetStatus(s.lanes, l, Sorting)
    ensures r.log == s.log + [CycleStarted(LaneName(l))]
    ensures r.running == s.running + multiset{Cycle(l, 0)}
  {
    BusyStart(s.running, l);
    s.(spawned := s.spawned - multiset{l},
       lanes := SetStatus(s.lanes, l, Sorting),
       log := s.log + [CycleStarted(LaneName(l))],
       running := s.running + multiset{Cycle(l, 0)})
  }

  /** One relay write of a running cycle: the cycle's next write takes
      effect on its own lane's relay pair, no other pin moves, and the
      thread advances without any lane gaining or losing a thread. */
  function RelayStep(s: Sys, c: Cycle): (r: Sys)
    requires Valid(s) && c in s.running && c.done < RELAY_STEPS
    ensures Valid(r)
    ensures OnlyLaneMoved(s.pins, r.pins, c.lane)
    ensures forall m: LaneId :: Busy(r.running, m) == Busy(s.running, m)
    ensures Cycle(c.lane, c.done + 1) in r.running
    ensures r == s.(pins := r.pins, running := r.running)
    ensures r.running == s.running - multiset{c} + multiset{Cycle(c.lane, c.done + 1)}
    ensures r.pins == s.pins[CycleWrites(c.lane)[c.done].pin := CycleWrites(c.lane)[c.done].level]
  {
    var w := CycleWrites(c.lane)[c.done];
    WriteStaysOnLane(s.pins, w, c.lane);
    BusyAdvanceAll(s.running, c);
    s.(pins := s.pins[w.pin := w.level],
       running := s.running - multiset{c} + multiset{Cycle(c.lane, c.done + 1)})
  }

  /** The `finally` block: Ready, count plus one, a `sort` event with the
      new count, relays left as they are. */
  function FinishSorting(s: Sys, c: Cycle): (r: Sys)
    requires Valid(s) && c in s.running
    ensures Valid(r)
    ensures r.lanes[c.lane].status == Ready
    ensures r.lanes[c.lane].count == s.lanes[c.lane].count + 1
    ensures forall m: LaneId :: m != c.lane ==> r.lanes[m] == s.lanes[m]
    ensures r.log == s.log + FinishEvents(LaneName(c.lane), r.lanes[c.lane].count, c.done < RELAY_STEPS)
    ensures r == s.(lanes := r.lanes, log := r.log, running := r.running)
    ensures r.running == s.running - multiset{c}
  {
    var lanes := CompleteCycle(s.lanes, c.lane);
    s.(lanes := lanes,
       log := s.log + FinishEvents(LaneName(c.lane), lanes[c.lane].count, c.done < RELAY_STEPS),
       running := s.running - multiset{c})
  }

  /** 1 when the relay pin reads LOW (engaged), else 0. */
  function EngagedBit(pins: PinMap, p: Pin): Bit
    requires p in pins
  {
    if pins[p] == Low then 1 else 0
  }

  /** The `sensor` event one lane contributes to a tick: one event carrying
      the new reading when it differs from `prev_sensor`, else none. */
  function Edge(prev: seq<Bit>, l: LaneId, v: Level): seq<Event>
    requires |prev| == 3
  {
    if BitOf(v) != prev[l] then [SensorChanged(LaneName(l), BitOf(v))] else []
  }

  /** Lane `l` of `s` displays the sensor reading `v` and the relay levels
      of `pins`: `prev_sensor` and the sensor field hold the reading, and a
      relay field is 1 exactly when its pin reads LOW. */
  predicate Shows(s: Sys, l: LaneId, v: Level, pins: PinMap)
    requires Valid(s) && Wired(pins)
  {
    && s.prevSensor[l] == BitOf(v) && s.readings[l].sensor == BitOf(v)
    && (s.readings[l].relayGrab == 1 <==> pins[PullPin(l)] == Low)
    && (s.readings[l].relayPush == 1 <==> pins[PushPin(l)] == Low)
  }

  /** The broadcaster's work for one lane: sample the sensor, log its edge
      and refresh the displayed fields. */
  function SampleLane(s: Sys, l: LaneId, v: Level): (r: Sys)
    requires Valid(s)
    ensures Valid(r)
    ensures r == s.(readings := r.readings, prevSensor := r.prevSensor, log := r.log)
    ensures r.prevSensor == s.prevSensor[l := BitOf(v)]
    ensures r.readings == s.readings[l := Readings(BitOf(v), EngagedBit(s.pins, PullPin(l)), EngagedBit(s.pins, PushPin(l)))]
    ensures r.log == s.log + Edge(s.prevSensor, l, v)
    ensures Shows(r, l, v, s.pins)
    ensures |r.log| == |s.log| + (if BitOf(v) != s.prevSensor[l] then 1 else 0)
    ensures SensorChanged(LaneName(l), BitOf(v)) in r.log[|s.log|..] <==> BitOf(v) != s.prevSensor[l]
  {
    assert (s.log + Edge(s.prevSensor, l, v))[|s.log|..] == Edge(s.prevSensor, l, v);
    s.(prevSensor := s.prevSensor[l := BitOf(v)],
       readings := s.readings[l := Readings(BitOf(v), EngagedBit(s.pins, PullPin(l)), EngagedBit(s.pins, PushPin(l)))],
       log := s.log + Edge(s.prevSensor, l, v))
  }

  /** The events of one tick, lane by lane. */
  function Edges(prev: seq<Bit>, sensors: seq<Level>): seq<Event>
    requires |prev| == 3 && |sensors| == 3
  {
    Edge(prev, 0, sensors[0]) + Edge(prev, 1, sensors[1]) + Edge(prev, 2, sensors[2])
  }

  /** Appending three pieces one by one appends their concatenation. */
  lemma AppendThree<T>(a: seq<T>, x: seq<T>, y: seq<T>, z: seq<T>)
    ensures a + x + y + z == a + (x + y + z)
  {
  }

  /** One tick of `broadcast_state`: the lanes are sampled in order, so
      every lane's sensor field and `prev_sensor` take the new reading, and
      the relay fields show 1 exactly when the pin reads LOW. */
  function Tick(s: Sys, sensors: seq<Level>): (r: Sys)
    requires Valid(s) && |sensors| == 3
    ensures Valid(r)
    ensures r == s.(readings := r.readings, prevSensor := r.prevSensor, log := r.log)
    ensures forall l: LaneId :: Shows(r, l, sensors[l], s.pins)
    ensures r.log == s.log + Edges(s.prevSensor, sensors)
  {
    SampleAll(s, sensors);
    SampleAllLog(s, sensors);
    SampleLane(SampleLane(SampleLane(s, 0, sensors[0]), 1, sensors[1]), 2, sensors[2])
  }

  /** Sampling the three lanes in order leaves each showing its own reading
      and changes nothing but the displayed fields and the log. */
  lemma SampleAll(s: Sys, sensors: seq<Level>)
    requires Valid(s) && |sensors| == 3
    ensures var r := SampleLane(SampleLane(SampleLane(s, 0, sensors[0]), 1, sensors[1]), 2, sensors[2]);
            && r == s.(readings := r.readings, prevSensor := r.prevSensor, log := r.log)
            && (forall l: LaneId :: Shows(r, l, sensors[l], s.pins))
  {
    var s0 := SampleLane(s, 0, sensors[0]);
    var s1 := SampleLane(s0, 1, sensors[1]);
    var r := SampleLane(s1, 2, sensors[2]);
    assert r.prevSensor[1] == s1.prevSensor[1] && r.readings[1] == s1.readings[1];
    assert r.prevSensor[0] == s0.prevSensor[0] && r.readings[0] == s0.readings[0];
    assert Shows(r, 0, sensors[0], s.pins) && Shows(r, 1, sensors[1], s.pins) && Shows(r, 2, sensors[2], s.pins);
  }

  /** Sampling the three lanes in order logs their edges in lane order. */
  lemma SampleAllLog(s: Sys, sensors: seq<Level>)
    requires Valid(s) && |sensors| == 3
    ensures SampleLane(SampleLane(SampleLane(s, 0, sensors[0]), 1, sensors[1]), 2, sensors[2]).log
              == s.log + Edges(s.prevSensor, sensors)
  {
    AppendThree(s.log, Edge(s.prevSensor, 0, sensors[0]), Edge(s.prevSensor, 1, sensors[1]),
                Edge(s.prevSensor, 2, sensors[2]));
  }

  /** Number of lanes whose new sensor value differs from `prev`. */
  function Changed(prev: seq<Bit>, sensors: seq<Level>): nat
    requires |prev| == 3 && |sensors| == 3
  {
    (if BitOf(sensors[0]) != prev[0] then 1 else 0)
      + (if BitOf(sensors[1]) != prev[1] then 1 else 0)
      + (if BitOf(sensors[2]) != prev[2] then 1 else 0)
  }

  /** A tick logs only `sensor` events, one per lane whose reading changed
      and none for a lane whose reading stayed the same. */
  lemma TickLogsEdges(s: Sys, sensors: seq<Level>)
    requires Valid(s) && |sensors| == 3
    ensures var r := Tick(s, sensors);
            && |r.log| == |s.log| + Changed(s.prevSensor, sensors) && r.log[..|s.log|] == s.log
            && (forall e | e in r.log[|s.log|..] :: e.SensorChanged?)
            && (forall l: LaneId :: SensorChanged(LaneName(l), BitOf(sensors[l])) in r.log[|s.log|..]
                  <==> BitOf(sensors[l]) != s.prevSensor[l])
  {
    var r := Tick(s, sensors);
    var es := Edges(s.prevSensor, sensors);
    assert r.log[|s.log|..] == es;
    EdgesAreChanges(s.prevSensor, sensors);
  }

  /** The events of a tick are exactly one `sensor` event per changed lane. */
  lemma EdgesAreChanges(prev: seq<Bit>, sensors: seq<Level>)
    requires |prev| == 3 && |sensors| == 3
    ensures |Edges(prev, sensors)| == Changed(prev, sensors)
    ensures forall e | e in Edges(prev, sensors) :: e.SensorChanged?
    ensures forall l: LaneId :: SensorChanged(LaneName(l), BitOf(sensors[l])) in Edges(prev, sensors)
              <==> BitOf(sensors[l]) != prev[l]
  {
    LaneNameInjective();
  }

  /** What the environment may do next. */
  datatype Step =
    | Scan(decode: Decode, now: int)
    | Arrive(polls: seq<Poll>)
    | Start(lane: LaneId)
    | Actuate(cycle: Cycle)
    | Finish(cycle: Cycle)
    | Broadcast(sensors: seq<Level>)

  predicate Enabled(s: Sys, step: Step)
  {
    match step
    case Scan(_, _) => s.wait == Idle
    case Arrive(_) => s.wait.Waiting?
    case Start(l) => l in s.spawned
    case Actuate(c) => c in s.running && c.done < RELAY_STEPS
    case Finish(c) => c in s.running
    case Broadcast(sensors) => |sensors| == 3
  }

  /** One step of the system; a step that is not enabled changes nothing. */
  function Next(s: Sys, step: Step): (r: Sys)
    requires Valid(s)
    ensures Valid(r)
    ensures |s.log| <= |r.log| && r.log[..|s.log|] == s.log
  {
    if !Enabled(s, step) then s
    else
      match step
      case Scan(d, now) => Detect(s, d, now)
      case Arrive(polls) => AwaitItem(s, polls)
      case Start(l) => StartSorting(s, l)
      case Actuate(c) => RelayStep(s, c)
      case Finish(c) => FinishSorting(s, c)
      case Broadcast(sensors) => Tick(s, sensors)
  }

  function Run(s: Sys, steps: seq<Step>): (r: Sys)
    requires Valid(s)
    ensures Valid(r)
    decreases |steps|
  {
    if steps == [] then s else Run(Next(s, steps[0]), steps[1..])
  }

  // ------------------------------------------------------------ properties

  /** A lane's count moves only in the `finally` block, by exactly one. */
  lemma CountMovesOnlyInFinally(s: Sys, step: Step, l: LaneId)
    requires Valid(s)
    ensures Next(s, step).lanes[l].count ==
              s.lanes[l].count + (if Enabled(s, step) && step.Finish? && step.cycle.lane == l then 1 else 0)
  {
    if Enabled(s, step) {
      match step
      case Scan(d, now) => ScanKeepsCount(s, d, now, l);
      case Arrive(polls) =>
      case Start(m) =>
      case Actuate(c) =>
      case Finish(c) =>
      case Broadcast(sensors) =>
    }
  }

  /** A scan never changes a count. */
  lemma ScanKeepsCount(s: Sys, d: Decode, now: int, l: LaneId)
    requires Valid(s) && s.wait == Idle
    ensures Next(s, Scan(d, now)).lanes[l].count == s.lanes[l].count
  {
    assert Next(s, Scan(d, now)) == Detect(s, d, now);
  }

  /** Over any run, the log only grows and no count ever decreases. */
  lemma {:induction false} RunIsMonotone(s: Sys, steps: seq<Step>)
    requires Valid(s)
    ensures forall l: LaneId :: Run(s, steps).lanes[l].count >= s.lanes[l].count
    ensures |s.log| <= |Run(s, steps).log| && Run(s, steps).log[..|s.log|] == s.log
    decreases |steps|
  {
    if steps != [] {
      var s' := Next(s, steps[0]);
      forall l: LaneId ensures s'.lanes[l].count >= s.lanes[l].count {
        CountMovesOnlyInFinally(s, steps[0], l);
      }
      RunIsMonotone(s', steps[1..]);
    }
  }

  /** Lane codes are already in normal form. */
  lemma LaneCodeIsNormal(l: LaneId)
    ensures Normalize(LaneCode(l)) == LaneCode(l)
  {
    NormalizeAgrees(LaneCode(l));
    App.LaneCodeIsNormal(l);
  }

  /** So a scanned lane code selects its lane. */
  lemma CodeSelectsLane(l: LaneId)
    ensures Classify(Normalize(LaneCode(l))) == LaneToken(l)
  {
    NormalizeAgrees(LaneCode(l));
    App.CodeSelectsLane(l);
  }

  /** Seeing the code of a lane that is not Ready still starts the arrival
      wait, but logs nothing and leaves every lane as it was. */
  lemma BusyLaneStillWaits(s: Sys, l: LaneId, now: int)
    requires Valid(s) && s.wait == Idle && s.lanes[l].status != Ready
    requires Accepts(s.memory, LaneCode(l), now)
    ensures var r := Detect(s, Decoded(LaneCode(l)), now);
            && r.wait == Waiting(l, now + ARRIVAL_TIMEOUT_MS)
            && r.lanes == s.lanes && r.log == s.log
            && r.memory == Memory(LaneCode(l), now)
  {
    CodeSelectsLane(l);
  }

  /** While a cycle of lane `l` is running (the lane Sorting), seeing its
      code again and timing out forces the lane to Ready with that cycle
      still running: the pairing of status and threads that app.py keeps
      is broken. */
  lemma TimeoutOverridesSorting(s: Sys, l: LaneId, now: int, polls: seq<Poll>)
    requires Valid(s) && s.wait == Idle && s.lanes[l].status == Sorting && Busy(s.running, l) == 1
    requires Accepts(s.memory, LaneCode(l), now)
    requires AwaitArrival(polls, now + ARRIVAL_TIMEOUT_MS).TimedOut?
    ensures var s1 := Detect(s, Decoded(LaneCode(l)), now);
            s1.wait == Waiting(l, now + ARRIVAL_TIMEOUT_MS) &&
            var r := AwaitItem(s1, polls);
            && r.lanes[l].status == Ready
            && Busy(r.running, l) == 1
            && r.log == s.log
  {
    BusyLaneStillWaits(s, l, now);
  }

  /** Starting a thread adds exactly one thread of its lane and none of
      any other lane. */
  lemma BusyStart(running: multiset<Cycle>, l: LaneId)
    ensures forall m: LaneId ::
              Busy(running + multiset{Cycle(l, 0)}, m) == Busy(running, m) + (if m == l then 1 else 0)
  {
  }

  /** Seeing a lane's code and then the item spawns a thread for it,
      whatever the lane's status. */
  lemma ScanAndArrive(s: Sys, l: LaneId, now: int, at: int)
    requires Valid(s) && s.wait == Idle
    requires Accepts(s.memory, LaneCode(l), now) && at < now + ARRIVAL_TIMEOUT_MS
    ensures var s1 := Detect(s, Decoded(LaneCode(l)), now);
            s1.wait == Waiting(l, now + ARRIVAL_TIMEOUT_MS) &&
            var r := AwaitItem(s1, [Poll(at, Low)]);
            && r.spawned == s.spawned + multiset{l}
            && r.running == s.running && r.wait == Idle
            && r.memory == Memory(LaneCode(l), now)
            && (s.lanes[l].status == Ready ==> r.lanes[l].status == AwaitingItem)
            && (s.lanes[l].status != Ready ==> r.log == s.log)
  {
    CodeSelectsLane(l);
    var s1 := Detect(s, Decoded(LaneCode(l)), now);
    assert s1.wait == Waiting(l, now + ARRIVAL_TIMEOUT_MS);
    assert ArrivesAt([Poll(at, Low)], now + ARRIVAL_TIMEOUT_MS, 0);
  }

  /** While a cycle of lane `l` is running, seeing its code again and the
      sensor reading LOW dispatches a second cycle for the same lane, with
      no `qr` event for it: two threads then drive the same relays. */
  lemma SecondCycleDispatched(s: Sys, l: LaneId, now: int, at: int)
    requires Valid(s) && s.wait == Idle && s.lanes[l].status == Sorting && Busy(s.running, l) == 1
    requires Accepts(s.memory, LaneCode(l), now) && at < now + ARRIVAL_TIMEOUT_MS
    ensures var s1 := Detect(s, Decoded(LaneCode(l)), now);
            s1.wait == Waiting(l, now + ARRIVAL_TIMEOUT_MS) &&
            var s2 := AwaitItem(s1, [Poll(at, Low)]);
            l in s2.spawned &&
            var r := StartSorting(s2, l);
            && Busy(r.running, l) == 2
            && r.log == s.log + [CycleStarted(LaneName(l))]
  {
    ScanAndArrive(s, l, now, at);
    BusyStart(s.running, l);
  }

  /** A run starting with `step` takes that step first. */
  lemma RunFirst(s: Sys, steps: seq<Step>)
    requires Valid(s) && steps != []
    ensures Run(s, steps) == Run(Next(s, steps[0]), steps[1..])
  {
  }

  /** Running `xs` and then `ys` is running `xs + ys`. */
  lemma {:induction false} RunAppend(s: Sys, xs: seq<Step>, ys: seq<Step>)
    requires Valid(s)
    ensures Run(s, xs + ys) == Run(Run(s, xs), ys)
    decreases |xs|
  {
    if xs == [] {
      assert xs + ys == ys;
    } else {
      assert (xs + ys)[0] == xs[0];
      assert (xs + ys)[1..] == xs[1..] + ys;
      RunAppend(Next(s, xs[0]), xs[1..], ys);
    }
  }

  /** The environment's moves that bring lane `l` to Sorting: its code seen
      at `t`, the item arriving at `at`, the spawned thread starting. */
  function ToSorting(l: LaneId, t: int, at: int): seq<Step>
  {
    [Scan(Decoded(LaneCode(l)), t), Arrive([Poll(at, Low)]), Start(l)]
  }

  /** A spawned thread's start step is `StartSorting`. */
  lemma NextStart(s: Sys, l: LaneId)
    requires Valid(s) && l in s.spawned
    ensures Next(s, Start(l)) == StartSorting(s, l)
  {
  }

  /** The run of a scan of a lane code and an early LOW sample is the scan
      followed by the end of the wait, which spawns a thread of the lane. */
  lemma ScanArriveRun(s: Sys, l: LaneId, t: int, at: int)
    requires Valid(s) && s.wait == Idle
    requires Accepts(s.memory, LaneCode(l), t) && at < t + ARRIVAL_TIMEOUT_MS
    ensures var r := Run(s, [Scan(Decoded(LaneCode(l)), t), Arrive([Poll(at, Low)])]);
            && r.spawned == s.spawned + multiset{l}
            && r.running == s.running && r.wait == Idle
            && r.memory == Memory(LaneCode(l), t)
            && (s.lanes[l].status != Ready ==> r.log == s.log)
  {
    var scan, arrive := Scan(Decoded(LaneCode(l)), t), Arrive([Poll(at, Low)]);
    ScanAndArrive(s, l, t, at);
    var s1 := Detect(s, Decoded(LaneCode(l)), t);
    assert Next(s, scan) == s1;
    assert Next(s1, arrive) == AwaitItem(s1, [Poll(at, Low)]);
    RunTwo(s, scan, arrive);
  }

  /** From any free state that accepts the lane code, the moves of
      `ToSorting` leave the lane Sorting with one more cycle running and the
      loop free; when the lane was not Ready the only event is the start of
      the cycle. */
  lemma RunToSorting(s: Sys, l: LaneId, t: int, at: int)
    requires Valid(s) && s.wait == Idle
    requires Accepts(s.memory, LaneCode(l), t) && at < t + ARRIVAL_TIMEOUT_MS
    ensures var r := Run(s, ToSorting(l, t, at));
            && r.wait == Idle && r.memory == Memory(LaneCode(l), t)
            && r.lanes[l].status == Sorting && Busy(r.running, l) == Busy(s.running, l) + 1
            && (s.lanes[l].status != Ready ==> r.log == s.log + [CycleStarted(LaneName(l))])
  {
    var firstTwo := [Scan(Decoded(LaneCode(l)), t), Arrive([Poll(at, Low)])];
    var sa := Run(s, firstTwo);
    ScanArriveRun(s, l, t, at);
    assert ToSorting(l, t, at) == firstTwo + [Start(l)];
    RunAppend(s, firstTwo, [Start(l)]);
    RunFirst(sa, [Start(l)]);
    assert [Start(l)][1..] == [];
    NextStart(sa, l);
  }

  /** The situation both lemmas above start from is reachable from start-up:
      any lane code is accepted at first sight, so the three moves of
      `ToSorting` leave the lane Sorting with one cycle running and the
      detection loop free to scan. */
  lemma SortingIsReachable(boot: PinMap, l: LaneId, t: int, at: int)
    requires at < t + ARRIVAL_TIMEOUT_MS
    ensures var r := Run(Init(boot), ToSorting(l, t, at));
            && r.wait == Idle
            && r.lanes[l].status == Sorting && Busy(r.running, l) == 1
            && r.memory == Memory(LaneCode(l), t)
  {
    var s0 := Init(boot);
    assert s0.wait == Idle && s0.running == multiset{} && s0.memory == InitialMemory();
    RunToSorting(s0, l, t, at);
  }

  /** Two moves run one after the other. */
  lemma RunTwo(s: Sys, x: Step, y: Step)
    requires Valid(s)
    ensures Run(s, [x, y]) == Next(Next(s, x), y)
  {
    RunFirst(s, [x, y]);
    assert [x, y][1..] == [y];
    RunFirst(Next(s, x), [y]);
    assert [y][1..] == [];
  }

  /** From a Sorting lane with one cycle running, the run of a scan of its
      code and a timed-out wait leaves it Ready with the cycle running. */
  lemma TimeoutRun(s: Sys, l: LaneId, now: int, polls: seq<Poll>)
    requires Valid(s) && s.wait == Idle && s.lanes[l].status == Sorting && Busy(s.running, l) == 1
    requires Accepts(s.memory, LaneCode(l), now)
    requires AwaitArrival(polls, now + ARRIVAL_TIMEOUT_MS).TimedOut?
    ensures var r := Run(s, [Scan(Decoded(LaneCode(l)), now), Arrive(polls)]);
            r.lanes[l].status == Ready && Busy(r.running, l) == 1
  {
    TimeoutOverridesSorting(s, l, now, polls);
    RunTwo(s, Scan(Decoded(LaneCode(l)), now), Arrive(polls));
  }

  /** From a Sorting lane with one cycle running, the moves of `ToSorting`
      leave it Sorting with two cycles running. */
  lemma SecondCycleRun(s: Sys, l: LaneId, now: int, at: int)
    requires Valid(s) && s.wait == Idle && s.lanes[l].status == Sorting && Busy(s.running, l) == 1
    requires Accepts(s.memory, LaneCode(l), now) && at < now + ARRIVAL_TIMEOUT_MS
    ensures var r := Run(s, ToSorting(l, now, at));
            r.lanes[l].status == Sorting && Busy(r.running, l) == 2
  {
    RunToSorting(s, l, now, at);
  }

  /** From start-up, after lane `l` reaches Sorting, its code seen again
      more than 3 s later and a timed-out wait put it back to Ready while
      its cycle still runs. */
  lemma TimeoutOverridesFromStartUp(boot: PinMap, l: LaneId, t: int, at: int, now: int, polls: seq<Poll>)
    requires at < t + ARRIVAL_TIMEOUT_MS && now - t > DEDUP_WINDOW_MS
    requires AwaitArrival(polls, now + ARRIVAL_TIMEOUT_MS).TimedOut?
    ensures var r := Run(Init(boot), ToSorting(l, t, at) + [Scan(Decoded(LaneCode(l)), now), Arrive(polls)]);
            r.lanes[l].status == Ready && Busy(r.running, l) == 1
  {
    var s0 := Init(boot);
    var s := Run(s0, ToSorting(l, t, at));
    SortingIsReachable(boot, l, t, at);
    TimeoutRun(s, l, now, polls);
    RunAppend(s0, ToSorting(l, t, at), [Scan(Decoded(LaneCode(l)), now), Arrive(polls)]);
  }

  /** From start-up, after lane `l` reaches Sorting, its code seen again
      more than 3 s later and the sensor reading LOW start a second cycle of
      the same lane. */
  lemma SecondCycleFromStartUp(boot: PinMap, l: LaneId, t: int, at: int, now: int, at': int)
    requires at < t + ARRIVAL_TIMEOUT_MS && now - t > DEDUP_WINDOW_MS && at' < now + ARRIVAL_TIMEOUT_MS
    ensures var r := Run(Init(boot), ToSorting(l, t, at) + ToSorting(l, now, at'));
            r.lanes[l].status == Sorting && Busy(r.running, l) == 2
  {
    var s0 := Init(boot);
    var s := Run(s0, ToSorting(l, t, at));
    SortingIsReachable(boot, l, t, at);
    SecondCycleRun(s, l, now, at');
    RunAppend(s0, ToSorting(l, t, at), ToSorting(l, now, at'));
  }
}

=== FILE: detector.dfy ===
/** The decision logic of the QR detection loop, shared by both controller
    variants: the deduplication rule, payload classification and the bounded
    wait for an item to reach its lane. Times are integer milliseconds. */
module Detector {
  import opened Gpio

  /** A repeated payload is acted on again only after strictly more than 3 s. */
  const DEDUP_WINDOW_MS: int := 3000

  /** The arrival wait gives up 15 s after it starts. */
  const ARRIVAL_TIMEOUT_MS: int := 15000

  /** What one loop iteration obtained from the camera: `Skipped` when there
      was no frame yet or the decoder raised, otherwise the decoded text
      (empty when no code was found). */
  datatype Decode = Skipped | Decoded(payload: string)

  /** The detector's memory of the last accepted raw payload and its time. */
  datatype Memory = Memory(lastPayload: string, lastTime: int)

  function InitialMemory(): Memory
  {
    Memory("", 0)
  }

  /** A payload is acted on iff it is non-empty and either differs from the
      last accepted raw payload or arrives more than 3 s after it. */
  function Accepts(m: Memory, payload: string, now: int): (ok: bool)
    ensures |payload| == 0 ==> !ok
    ensures |payload| > 0 && payload != m.lastPayload ==> ok
    ensures payload == m.lastPayload && |payload| > 0 ==> (ok <==> now - m.lastTime > DEDUP_WINDOW_MS)
  {
    |payload| > 0 && (payload != m.lastPayload || now - m.lastTime > DEDUP_WINDOW_MS)
  }

  /** Before anything was accepted, every non-empty payload is acted on,
      whatever the time. */
  lemma StartUpAcceptsAll(payload: string, now: int)
    ensures Accepts(InitialMemory(), payload, now) <==> |payload| > 0
  {
  }

  /** The loop iteration obtained a payload that passes the rule. */
  predicate ActsOn(m: Memory, d: Decode, now: int)
  {
    d.Decoded? && Accepts(m, d.payload, now)
  }

  /** The memory after an acceptance: the raw payload and the current time.
      From then on that payload is refused until more than 3 s after `now`,
      and every other non-empty payload is accepted. */
  function Remember(m: Memory, payload: string, now: int): (m': Memory)
    requires Accepts(m, payload, now)
    ensures m' != m
    ensures !Accepts(m', payload, now)
    ensures forall q, t :: Accepts(m', q, t) <==> |q| > 0 && (q != payload || t - now > DEDUP_WINDOW_MS)
  {
    Memory(payload, now)
  }

  /** Once `p` is accepted at `t`, showing `p` again at `t'` is acted on iff
      more than 3 s have passed, while any other non-empty payload is acted
      on at once. */
  lemma RepeatRule(m: Memory, p: string, t: int, q: string, t': int)
    requires Accepts(m, p, t)
    ensures q == p ==> (Accepts(Remember(m, p, t), q, t') <==> t' - t > DEDUP_WINDOW_MS)
    ensures q != p && |q| > 0 ==> Accepts(Remember(m, p, t), q, t')
    ensures |q| == 0 ==> !Accepts(Remember(m, p, t), q, t')
  {
  }

  /** The outcome of classifying a normalised payload. */
  datatype Token = LaneToken(lane: LaneId) | Reject | Unknown

  /** The lane codes `LOAI1`, `LOAI2`, `LOAI3` of lanes 0, 1, 2. */
  function LaneCode(l: LaneId): string
  {
    ["LOAI1", "LOAI2", "LOAI3"][l]
  }

  const REJECT_CODE: string := "NG"

  function Classify(norm: string): (t: Token)
    ensures t.LaneToken? ==> norm == LaneCode(t.lane)
    ensures t == Reject <==> norm == REJECT_CODE
    ensures t == Unknown <==> norm != REJECT_CODE && forall l: LaneId :: norm != LaneCode(l)
  {
    if norm == LaneCode(0) then LaneToken(0)
    else if norm == LaneCode(1) then LaneToken(1)
    else if norm == LaneCode(2) then LaneToken(2)
    else if norm == REJECT_CODE then Reject
    else Unknown
  }

  /** The lane table is a bijection between codes and lanes. */
  lemma ClassifyCode(l: LaneId)
    ensures Classify(LaneCode(l)) == LaneToken(l)
    ensures forall m: LaneId :: LaneCode(m) == LaneCode(l) ==> m == l
  {
    assert LaneCode(l)[4] == ['1', '2', '3'][l];
  }

  /** One sensor sample of the arrival wait: the loop clock `at` when the
      loop condition was checked, and the level then read. */
  datatype Poll = Poll(at: int, level: Level)

  datatype Arrival = Arrived(index: nat) | TimedOut

  /** Poll `k` is the one that ends the wait with an arrival: every poll up to
      and including it was taken before the deadline, it reads LOW and every
      earlier one read HIGH. */
  predicate ArrivesAt(polls: seq<Poll>, deadline: int, k: nat)
  {
    && k < |polls|
    && polls[k].at < deadline && polls[k].level == Low
    && forall j :: 0 <= j < k ==> polls[j].at < deadline && polls[j].level == High
  }

  lemma ArrivalIsUnique(polls: seq<Poll>, deadline: int, k: nat, k': nat)
    requires ArrivesAt(polls, deadline, k) && ArrivesAt(polls, deadline, k')
    ensures k == k'
  {
  }

  /** The polling loop from sample `i` on, all earlier samples having been
      taken before the deadline and read HIGH. */
  function AwaitFrom(polls: seq<Poll>, deadline: int, i: nat): (r: Arrival)
    requires i <= |polls|
    requires forall j :: 0 <= j < i ==> polls[j].at < deadline && polls[j].level == High
    ensures r.Arrived? ==> ArrivesAt(polls, deadline, r.index)
    ensures r.TimedOut? <==> forall k :: i <= k < |polls| ==> !ArrivesAt(polls, deadline, k)
    decreases |polls| - i
  {
    if i == |polls| || polls[i].at >= deadline then TimedOut
    else if polls[i].level == Low then assert ArrivesAt(polls, deadline, i); Arrived(i)
    else AwaitFrom(polls, deadline, i + 1)
  }

  /** The arrival wait: the samples taken while the clock is before the
      deadline decide it; the first LOW one is an arrival, and running out of
      time (or of samples) is a timeout. */
  function AwaitArrival(polls: seq<Poll>, deadline: int): (r: Arrival)
    ensures r.Arrived? ==> ArrivesAt(polls, deadline, r.index)
    ensures r.TimedOut? <==> forall k :: 0 <= k < |polls| ==> !ArrivesAt(polls, deadline, k)
  {
    AwaitFrom(polls, deadline, 0)
  }
}

=== FILE: gpio.dfy ===
/** Digital I/O as the sorting controller sees it: board pin numbers, two
    logic levels, the wiring of the three lanes, and an abstract pin map that
    records the level last written to each output pin. */
module Gpio {

  /** Index of one of the three physical lanes. */
  type LaneId = l: nat | l < 3

  datatype Level = Low | High

  /** A sampled digital value as the source stores it (0 or 1). */
  type Bit = b: int | 0 <= b <= 1

  function BitOf(v: Level): Bit
  {
    if v == Low then 0 else 1
  }

  type Pin = nat

  /** The relay pair and the proximity sensor of each lane (board numbering). */
  function PushPin(l: LaneId): Pin { [11, 13, 15][l] }
  function PullPin(l: LaneId): Pin { [12, 8, 7][l] }
  /** The sensor pins are read, never written: the levels read from them
      enter the model as sampled inputs (the arrival wait's polls and the
      broadcaster's per-lane readings), not through the pin map. */
  function SensorPin(l: LaneId): Pin { [5, 29, 31][l] }

  /** No two roles share a pin, so a write for one lane never reaches another. */
  lemma WiringIsInjective(l: LaneId, m: LaneId)
    ensures PushPin(l) != PullPin(m)
    ensures PushPin(l) != SensorPin(m) && PullPin(l) != SensorPin(m)
    ensures l != m ==> PushPin(l) != PushPin(m) && PullPin(l) != PullPin(m)
    ensures l != m ==> SensorPin(l) != SensorPin(m)
  {
  }

  type PinMap = map<Pin, Level>

  datatype Write = Write(pin: Pin, level: Level)

  /** `ws` never writes pin `p`. */
  predicate Untouched(ws: seq<Write>, p: Pin)
  {
    forall j :: 0 <= j < |ws| ==> ws[j].pin != p
  }

  /** The write at index `j` is the last one in `ws` to its pin. */
  predicate LastWriteAt(ws: seq<Write>, j: nat)
    requires j < |ws|
  {
    forall k :: j < k < |ws| ==> ws[k].pin != ws[j].pin
  }

  /** The pin map after performing the writes `ws` in order. */
  function Apply(pins: PinMap, ws: seq<Write>): (r: PinMap)
    ensures forall p :: p in pins ==> p in r
    ensures forall j :: 0 <= j < |ws| ==> ws[j].pin in r
    decreases |ws|
  {
    if ws == [] then pins else Apply(pins[ws[0].pin := ws[0].level], ws[1..])
  }

  /** A pin that `ws` never writes keeps its level (and stays unset if unset). */
  lemma {:induction false} ApplyKeeps(pins: PinMap, ws: seq<Write>, p: Pin)
    requires Untouched(ws, p)
    ensures p in Apply(pins, ws) <==> p in pins
    ensures p in pins ==> Apply(pins, ws)[p] == pins[p]
    decreases |ws|
  {
    if ws != [] {
      assert ws[0].pin != p;
      assert Untouched(ws[1..], p) by {
        forall j | 0 <= j < |ws| - 1 ensures ws[1..][j].pin != p {
          assert ws[1..][j] == ws[j + 1];
        }
      }
      ApplyKeeps(pins[ws[0].pin := ws[0].level], ws[1..], p);
    }
  }

  /** A written pin holds the level of the last write to it. */
  lemma {:induction false} ApplyLastWrite(pins: PinMap, ws: seq<Write>, j: nat)
    requires j < |ws| && LastWriteAt(ws, j)
    ensures ws[j].pin in Apply(pins, ws)
    ensures Apply(pins, ws)[ws[j].pin] == ws[j].level
    decreases |ws|
  {
    var pins' := pins[ws[0].pin := ws[0].level];
    if j == 0 {
      assert Untouched(ws[1..], ws[0].pin) by {
        forall k | 0 <= k < |ws| - 1 ensures ws[1..][k].pin != ws[0].pin {
          assert ws[1..][k] == ws[k + 1];
        }
      }
      ApplyKeeps(pins', ws[1..], ws[0].pin);
    } else {
      assert ws[1..][j - 1] == ws[j];
      assert LastWriteAt(ws[1..], j - 1) by {
        forall k | j - 1 < k < |ws| - 1 ensures ws[1..][k].pin != ws[j].pin {
          assert ws[1..][k] == ws[k + 1];
        }
      }
      ApplyLastWrite(pins', ws[1..], j - 1);
    }
  }

  /** Performing `xs` and then `ys` is performing `xs + ys`. */
  lemma {:induction false} ApplyAppend(pins: PinMap, xs: seq<Write>, ys: seq<Write>)
    ensures Apply(pins, xs + ys) == Apply(Apply(pins, xs), ys)
    decreases |xs|
  {
    if xs == [] {
      assert xs + ys == ys;
    } else {
      assert (xs + ys)[0] == xs[0];
      assert (xs + ys)[1..] == xs[1..] + ys;
      ApplyAppend(pins[xs[0].pin := xs[0].level], xs[1..], ys);
    }
  }

  /** Two writes update the map in order. */
  lemma ApplyTwo(pins: PinMap, a: Write, b: Write)
    ensures Apply(pins, [a, b]) == pins[a.pin := a.level][b.pin := b.level]
  {
    var m := pins[a.pin := a.level];
    assert [a, b][1..] == [b];
    assert Apply(pins, [a, b]) == Apply(m, [b]);
    assert [b][1..] == [];
    assert Apply(m, [b]) == Apply(m[b.pin := b.level], []);
  }

  /** Both relays of a lane are wired and resting: push released (HIGH) and
      pull engaged (LOW), the relays being driven active-low. */
  predicate AtRest(pins: PinMap, l: LaneId)
  {
    && PushPin(l) in pins && pins[PushPin(l)] == High
    && PullPin(l) in pins && pins[PullPin(l)] == Low
  }

  /** `after` differs from `before` at most on the relay pair of lane `l`. */
  ghost predicate OnlyLaneMoved(before: PinMap, after: PinMap, l: LaneId)
  {
    forall p: Pin | p != PushPin(l) && p != PullPin(l) ::
      (p in after <==> p in before) && (p in before ==> after[p] == before[p])
  }

  /** A write to one of a lane's relays moves no pin outside that lane. */
  lemma WriteStaysOnLane(pins: PinMap, w: Write, l: LaneId)
    requires w.pin == PushPin(l) || w.pin == PullPin(l)
    ensures OnlyLaneMoved(pins, pins[w.pin := w.level], l)
  {
  }

  /** Every relay pin has been given a level. */
  predicate Wired(pins: PinMap)
  {
    forall l: LaneId :: PushPin(l) in pins && PullPin(l) in pins
  }

  /** Updates of two different pins commute. */
  lemma SwapPair(m: PinMap, a: Pin, b: Pin, x: Level, y: Level)
    requires a != b
    ensures m[a := x][b := y] == m[b := y][a := x]
  {
  }

  /** Writing a pair of pins twice leaves only the second pair of levels. */
  lemma OverwritePair(m: PinMap, a: Pin, b: Pin, x: Level, y: Level, z: Level, w: Level)
    requires a != b
    ensures m[a := x][b := y][b := z][a := w] == m[b := z][a := w]
  {
  }
}

=== FILE: lanes.dfy ===
/** The shared lane state of the controller, the events it emits, and the
    bookkeeping of the detection loop and of the spawned sorting threads. */
module Lanes {
  import opened Gpio

  /** Lane status; the dashboard shows "Sẵn sàng", "Đang chờ vật..." and
      "Đang phân loại..." respectively. */
  datatype Status = Ready | AwaitingItem | Sorting

  datatype Lane = Lane(name: string, status: Status, count: nat)

  function LaneName(l: LaneId): string
  {
    ["Loại 1", "Loại 2", "Loại 3"][l]
  }

  /** Distinct lanes have distinct names. */
  lemma LaneNameInjective()
    ensures forall l: LaneId, m: LaneId :: LaneName(l) == LaneName(m) ==> l == m
  {
    forall l: LaneId, m: LaneId | LaneName(l) == LaneName(m) ensures l == m {
      assert LaneName(l)[5] == ['1', '2', '3'][l];
      assert LaneName(m)[5] == ['1', '2', '3'][m];
    }
  }

  /** The log events pushed to dashboard clients (the timestamp is left out). */
  datatype Event =
    | CycleStarted(lane: string)          // info: "Bắt đầu chu trình cho <lane>"
    | CycleFinished(lane: string)         // info: "Hoàn tất chu trình cho <lane>"
    | Qr(data: string)
    | NgProduct(data: string)             // reject token, as app.py names it
    | QrNg(data: string)                  // reject token, as app1.py names it
    | UnknownQr(data: string)
    | Sorted(lane: string, count: nat)    // `sort`, carrying the new count
    | SensorChanged(lane: string, level: Bit)

  /** Exactly three lanes, each keeping its name for the process lifetime. */
  predicate Shaped(lanes: seq<Lane>)
  {
    |lanes| == 3 && forall l: LaneId :: lanes[l].name == LaneName(l)
  }

  function InitialLanes(): (r: seq<Lane>)
    ensures Shaped(r)
    ensures forall l: LaneId :: r[l].status == Ready && r[l].count == 0
  {
    [Lane(LaneName(0), Ready, 0), Lane(LaneName(1), Ready, 0), Lane(LaneName(2), Ready, 0)]
  }

  /** Writes one lane's status; every other field and lane is left alone. */
  function SetStatus(lanes: seq<Lane>, l: LaneId, st: Status): (r: seq<Lane>)
    requires Shaped(lanes)
    ensures Shaped(r)
    ensures r[l].status == st && r[l].count == lanes[l].count
    ensures forall m: LaneId :: m != l ==> r[m] == lanes[m]
  {
    lanes[l := lanes[l].(status := st)]
  }

  /** The `finally` block of a sorting cycle: the lane is Ready again and its
      count has grown by exactly one. */
  function CompleteCycle(lanes: seq<Lane>, l: LaneId): (r: seq<Lane>)
    requires Shaped(lanes)
    ensures Shaped(r)
    ensures r[l].status == Ready && r[l].count == lanes[l].count + 1
    ensures forall m: LaneId :: m != l ==> r[m] == lanes[m]
  {
    lanes[l := lanes[l].(status := Ready, count := lanes[l].count + 1)]
  }

  /** The events the `finally` block and what follows it emit: the `sort`
      event with the new count, and the closing info event only when the
      relay sequence ran to its end without raising. */
  function FinishEvents(name: string, newCount: nat, faulted: bool): (es: seq<Event>)
    ensures |es| == if faulted then 1 else 2
    ensures es[0] == Sorted(name, newCount)
    ensures CycleFinished(name) in es <==> !faulted
  {
    [Sorted(name, newCount)] + (if faulted then [] else [CycleFinished(name)])
  }

  /** Number of relay writes in one sorting cycle. */
  const RELAY_STEPS: nat := 4

  /** A running sorting thread: its lane and the relay writes done so far. */
  datatype Cycle = Cycle(lane: LaneId, done: nat)

  /** Where the detection loop is: free to scan, or blocked in the arrival
      wait for `lane` until `deadline`. */
  datatype Wait = Idle | Waiting(lane: LaneId, deadline: int)

  predicate WaitsOn(w: Wait, l: LaneId)
  {
    w.Waiting? && w.lane == l
  }

  /** Number of running sorting threads of lane `l` (each has done at most
      RELAY_STEPS writes). */
  function Busy(running: multiset<Cycle>, l: LaneId): nat
  {
    running[Cycle(l, 0)] + running[Cycle(l, 1)] + running[Cycle(l, 2)]
      + running[Cycle(l, 3)] + running[Cycle(l, 4)]
  }

  /** Every running thread is of some lane and within its relay sequence. */
  predicate CyclesBounded(running: multiset<Cycle>)
  {
    forall c | c in running :: c.done <= RELAY_STEPS
  }

  /** Moving a thread on by one relay write does not change the number of
      threads of any lane. */
  lemma BusyAdvance(running: multiset<Cycle>, c: Cycle, l: LaneId)
    requires c in running && c.done < RELAY_STEPS
    ensures Busy(running - multiset{c} + multiset{Cycle(c.lane, c.done + 1)}, l) == Busy(running, l)
  {
  }

  /** The same, for every lane at once. */
  lemma BusyAdvanceAll(running: multiset<Cycle>, c: Cycle)
    requires c in running && c.done < RELAY_STEPS
    ensures forall m: LaneId ::
              Busy(running - multiset{c} + multiset{Cycle(c.lane, c.done + 1)}, m) == Busy(running, m)
  {
    forall m: LaneId
      ensures Busy(running - multiset{c} + multiset{Cycle(c.lane, c.done + 1)}, m) == Busy(running, m)
    {
      BusyAdvance(running, c, m);
    }
  }

  /** Ending a thread removes exactly one thread of its lane. */
  lemma BusyRemove(running: multiset<Cycle>, c: Cycle, l: LaneId)
    requires c in running && c.done <= RELAY_STEPS
    ensures Busy(running - multiset{c}, l) == Busy(running, l) - (if c.lane == l then 1 else 0)
  {
  }

  /** Under CyclesBounded, Busy counts every thread of the lane. */
  lemma BusyCounts(running: multiset<Cycle>, c: Cycle)
    requires CyclesBounded(running) && c in running
    ensures Busy(running, c.lane) >= 1
  {
  }
}

=== FILE: text.dfy ===
/** The part of Python's `str.upper()` and `str.strip()` that payload
    normalisation depends on. */
module Text {

  /** Python's `str.isspace()`: the characters `strip()` removes by default. */
  predicate IsSpace(c: char)
  {
    || c == ' '
    || ('\t' <= c <= '\r')
    || ('\U{1c}' <= c <= '\U{1f}')
    || c == '\U{85}' || c == '\U{a0}' || c == '\U{1680}'
    || ('\U{2000}' <= c <= '\U{200a}')
    || c == '\U{2028}' || c == '\U{2029}' || c == '\U{202f}'
    || c == '\U{205f}' || c == '\U{3000}'
  }

  predicate AllSpace(s: string)
  {
    forall i :: 0 <= i < |s| ==> IsSpace(s[i])
  }

  /** Upper-cases ASCII letters, the dotless `ı` (to `I`) and the long `ſ`
      (to `S`), the characters outside `a`-`z` whose upper case is a single
      ASCII letter; every other character is kept. */
  function UpperChar(c: char): (u: char)
  {
    if 'a' <= c <= 'z' then (c as int - 32) as char
    else if c == '\U{131}' then 'I'
    else if c == '\U{17f}' then 'S'
    else c
  }

  /** Python's `str.upper()` restricted to one-to-one mappings: every a-z
      becomes its capital, `ı` becomes `I` and `ſ` becomes `S`, no
      lower-case ASCII letter is left, whitespace stays where it was, and
      every other character is kept. */
  function Upper(s: string): (r: string)
    ensures |r| == |s|
    ensures forall i :: 0 <= i < |s| && 'a' <= s[i] <= 'z' ==> r[i] as int + 32 == s[i] as int
    ensures forall i :: 0 <= i < |r| ==> !('a' <= r[i] <= 'z')
    ensures forall i :: 0 <= i < |s| && s[i] == '\U{131}' ==> r[i] == 'I'
    ensures forall i :: 0 <= i < |s| && s[i] == '\U{17f}' ==> r[i] == 'S'
    ensures forall i :: 0 <= i < |s| ==> (IsSpace(r[i]) <==> IsSpace(s[i]))
    ensures forall i :: 0 <= i < |s| && !('a' <= s[i] <= 'z') && s[i] != '\U{131}' && s[i] != '\U{17f}' ==> r[i] == s[i]
  {
    seq(|s|, i requires 0 <= i < |s| => UpperChar(s[i]))
  }

  /** Case mapping never turns a space into a non-space or back. */
  lemma UpperKeepsSpaces(c: char)
    ensures IsSpace(UpperChar(c)) <==> IsSpace(c)
  {
  }

  /** Upper-casing is idempotent and leaves no lower-case ASCII letter. */
  lemma UpperIdempotent(s: string)
    ensures Upper(Upper(s)) == Upper(s)
    ensures forall i :: 0 <= i < |s| ==> !('a' <= Upper(s)[i] <= 'z')
  {
  }

  /** Upper-casing commutes with dropping the first character. */
  lemma UpperTail(s: string)
    requires |s| > 0
    ensures Upper(s)[0] == UpperChar(s[0]) && Upper(s[1..]) == Upper(s)[1..]
  {
  }

  /** Upper-casing commutes with dropping the last character. */
  lemma UpperFront(s: string)
    requires |s| > 0
    ensures Upper(s)[|s| - 1] == UpperChar(s[|s| - 1]) && Upper(s[..|s| - 1]) == Upper(s)[..|s| - 1]
  {
  }

  /** Drops leading whitespace. */
  function TrimStart(s: string): (r: string)
    ensures |r| <= |s| && r == s[|s| - |r|..]
    ensures AllSpace(s[..|s| - |r|])
    ensures r == [] || !IsSpace(r[0])
    decreases |s|
  {
    if |s| > 0 && IsSpace(s[0]) then
      var t := s[1..];
      var r := TrimStart(t);
      assert t[|t| - |r|..] == s[|s| - |r|..];
      var front := s[..|s| - |r|];
      assert AllSpace(front) by {
        forall i | 0 <= i < |front| ensures IsSpace(front[i]) {
          if i > 0 { assert front[i] == t[..|t| - |r|][i - 1]; }
        }
      }
      r
    else s
  }

  /** Drops trailing whitespace. */
  function TrimEnd(s: string): (r: string)
    ensures |r| <= |s| && r == s[..|r|]
    ensures AllSpace(s[|r|..])
    ensures r == [] || !IsSpace(r[|r| - 1])
    decreases |s|
  {
    if |s| > 0 && IsSpace(s[|s| - 1]) then
      var t := s[..|s| - 1];
      var r := TrimEnd(t);
      assert t[..|r|] == s[..|r|];
      var back := s[|r|..];
      assert AllSpace(back) by {
        forall i | 0 <= i < |back| ensures IsSpace(back[i]) {
          if |r| + i < |t| { assert back[i] == t[|r|..][i]; }
        }
      }
      r
    else s
  }

  /** Python's `s.strip()`: the infix of `s` left after removing whitespace
      at both ends. */
  function Strip(s: string): (r: string)
    ensures exists a :: InfixAt(s, r, a)
    ensures r == [] || (!IsSpace(r[0]) && !IsSpace(r[|r| - 1]))
  {
    TrimBothIsInfix(s);
    TrimBothEnds(s);
    TrimEnd(TrimStart(s))
  }

  /** `r` sits in `s` at index `a` with only whitespace before and after it. */
  predicate InfixAt(s: string, r: string, a: int)
  {
    0 <= a <= |s| - |r| && r == s[a..a + |r|] && AllSpace(s[..a]) && AllSpace(s[a + |r|..])
  }

  /** Trimming both ends leaves an infix with only whitespace around it. */
  lemma TrimBothIsInfix(s: string)
    ensures exists a :: InfixAt(s, TrimEnd(TrimStart(s)), a)
  {
    var t := TrimStart(s);
    var r := TrimEnd(t);
    var a := |s| - |t|;
    assert r == s[a..a + |r|];
    assert s[a + |r|..] == t[|r|..];
    assert InfixAt(s, r, a);
  }

  /** Trimming both ends leaves no whitespace at either end. */
  lemma TrimBothEnds(s: string)
    ensures var r := TrimEnd(TrimStart(s));
            r == [] || (!IsSpace(r[0]) && !IsSpace(r[|r| - 1]))
  {
    var t := TrimStart(s);
    var r := TrimEnd(t);
    assert r == [] || r[0] == t[0];
  }

  lemma {:induction false} TrimStartUpper(s: string)
    ensures TrimStart(Upper(s)) == Upper(TrimStart(s))
    decreases |s|
  {
    if |s| > 0 {
      UpperTail(s);
      UpperKeepsSpaces(s[0]);
      if IsSpace(s[0]) {
        TrimStartUpper(s[1..]);
      }
    }
  }

  lemma {:induction false} TrimEndUpper(s: string)
    ensures TrimEnd(Upper(s)) == Upper(TrimEnd(s))
    decreases |s|
  {
    if |s| > 0 {
      UpperFront(s);
      UpperKeepsSpaces(s[|s| - 1]);
      if IsSpace(s[|s| - 1]) {
        TrimEndUpper(s[..|s| - 1]);
      }
    }
  }

  /** `upper()` then `strip()` and `strip()` then `upper()` agree. */
  lemma StripUpperCommute(s: string)
    ensures Strip(Upper(s)) == Upper(Strip(s))
  {
    TrimStartUpper(s);
    TrimEndUpper(TrimStart(s));
  }

  /** A string that has no lower-case letter and no surrounding whitespace
      is its own normal form. */
  lemma NormalFixpoint(s: string)
    requires forall i :: 0 <= i < |s| ==> UpperChar(s[i]) == s[i]
    requires s == [] || (!IsSpace(s[0]) && !IsSpace(s[|s| - 1]))
    ensures Upper(s) == s && Strip(s) == s
  {
    assert TrimStart(s) == s;
    assert TrimEnd(s) == s;
  }

  /** Stripping after upper-casing leaves no lower-case ASCII letter. */
  lemma StripUpperHasNoLower(raw: string)
    ensures forall i :: 0 <= i < |Strip(Upper(raw))| ==> !('a' <= Strip(Upper(raw))[i] <= 'z')
  {
    StripUpperCommute(raw);
  }

  /** Upper-casing then stripping reaches a text that both operations leave
      unchanged, so normalising twice is normalising once. */
  lemma NormalFormIsFixed(raw: string)
    ensures var r := Strip(Upper(raw)); Upper(r) == r && Strip(r) == r
  {
    StripUpperCommute(raw);
    UpperIdempotent(Strip(raw));
    var r := Strip(Upper(raw));
    forall i | 0 <= i < |r| ensures UpperChar(r[i]) == r[i] {
      assert Upper(r)[i] == UpperChar(r[i]);
    }
    NormalFixpoint(r);
  }
}
